=== FILE: README.md ===
# libnaxa loader caches in Dafny

This project models the asset loader of libnaxa (`src/gfx/loader.c`), the
string hash it relies on (`src/util/util.c`), and the error-message table
(`src/util/strerror.c`).

The loader keeps every texture in a fixed pool of 512 `NaxaTexture_t` slots.
- A free slot is threaded through its `next` field onto a free list headed by
  `texture_cache_next`.
- A loaded slot is threaded onto the chain of a hash bucket, headed by
  `texture_cache_hash_map`.
- `naxa_load_texture` looks a path up in its chain. On a hit it takes one more
  reference. On a miss it decodes the image, gets a GL name, and moves the
  free-list head to the front of the chain with one reference.
- `naxa_free_texture` drops one reference. When the count reaches zero, it
  unlinks the slot from its chain, zeroes it and pushes it back on the free
  list.
- `naxa_load_model` imports a scene and merges its meshes into one vertex
  buffer and one element buffer. It records one submodel per mesh and loads
  each mesh's diffuse texture relative to the model's directory.
- `naxa_free_model` frees those textures again.

Because `hash_code` returns 0 for every string, only bucket 0 ever holds a
chain.

Layout:
- `ctypes.dfy`: C integer widths, bytes, NUL-free C strings, nullable values
  and `T**` out-parameters.
- `err.dfy`: the error codes of `include/naxa/err.h`.
- `struct.dfy`: the records of `include/naxa/struct.h`. Pointers into a pool
  are slot indices, and NULL is -1.
- `strerror.dfy`: `STRERROR_TABLE` and `naxa_strerror`.
- `util.dfy`: `strlen` and `hash_code`.
- `chain.dfy`: singly linked lists threaded through the pool, each described by
  the sequence of slots it visits.
- `pool.dfy`: the texture pool as a value. It holds the pool invariant, the
  effect of one take and one release, and proofs that both keep the invariant.
- `assembly.dfy`: the pure part of `naxa_load_model`. This is the directory
  extraction, the texture path, and the merge of the meshes into one vertex and
  one element buffer with the submodel layout.
- `loader.dfy`: the loader's global state as the class `LoaderCaches`, with
  `init_loader_caches`, `naxa_load_texture`, `naxa_free_texture`,
  `naxa_load_model` and `naxa_free_model` as methods.

The class keeps two ghost lists: the slots on the free list and the slots on
the bucket-0 chain, each in list order. Its invariant `Valid` says that:
- both lists are well linked from their heads, and the other buckets are empty;
- every slot without a path is on the free list, and every slot with one is on
  the chain;
- a free slot has no GL texture and a count of at most zero, and a loaded slot
  has a GL texture and at least one reference;
- no two chained slots hold the same path.

Every operation keeps this invariant. Each is also specified against pure
descriptions of its effect on the pool:
- `Taken`: what a texture load does to counts, paths and GL names.
- `Retained`: a cache hit.
- `Released`: a slot being unlinked and freed.
- `Dropped`: what a texture free does to counts, paths and GL names.
- `Recounted`: what a model load does to counts, paths and GL names.
- `FilledFrom`: which submodel, image and GL name account for each slot a model load fills.
- `Freed`: what a model free does to counts, paths and GL names.

Where the library's own description of these functions and `loader.c` differ,
the model follows `loader.c`, with one exception listed under "## Findings"
(the directory of a model path without a separator):
- `naxa_load_model` ignores the return code of `naxa_load_texture`. A submodel
  whose texture failed to load keeps a NULL diffuse, and the model load still
  succeeds.
- When a mesh's material has no diffuse texture, the load fails with INTERNAL.
  The references already taken for earlier meshes are kept.
- The model is allocated with `malloc` rather than taken from the model pool.
  The model pool is only initialised.

## Model

| member | source | states |
|---|---|---|
| StrError.NaxaStrerror | src/util/strerror.c:12-17 | codes 0 to 5 get their own table entry; every result is a table entry; the result is "Out of bounds" exactly for BOUNDS and for every code outside 0 to 5 |
| StrError.MessagesIdentifyCodes | src/util/strerror.c:3-10 | two codes in the table with the same message are the same code |
| StrError.NullptrHasNoEntry | src/util/strerror.c:3-17 | NULLPTR (6) is one past the end of the table and reads "Out of bounds", as BOUNDS does |
| Util.Strlen | src/util/util.c:8 | the length is the index of a NUL with no NUL before it |
| Util.StrlenIsFirstNul | src/util/util.c:8 | any NUL with no NUL before it is at the length `strlen` returns |
| Util.HashCode | src/util/util.c:6-13 | returns 0 for every string; the accumulator it discards starts at 7 and takes h * 31 + c modulo 2^32 for each byte before the terminator, with `char` signed |
| Util.AccumulatorStopsAtTerminator | src/util/util.c:8-11 | bytes after the terminator never reach the accumulator |
| Chain.LinkedTail | src/gfx/loader.c:116-117 | popping the head of a list leaves a list that starts at the head's `next` |
| Chain.LinkedCons | src/gfx/loader.c:118-119 | a slot that is not on a list and whose `next` is the list's head can be pushed in front of it |
| Chain.LinkedFrame | src/gfx/loader.c:138-165 | a list survives any change that keeps the `next` fields of its own slots |
| Chain.CutDistinct | src/gfx/loader.c:145-152 | cutting one position out of a list without repeats leaves a list without repeats |
| Chain.LinkedUnlink | src/gfx/loader.c:145-152 | pointing the predecessor of position j at the successor of position j drops that one slot from the list and keeps the order of the rest |
| Chain.Remove | src/gfx/loader.c:140-158 | the result holds exactly the slots of the list other than x, and is no longer than the list |
| Chain.RemoveAbsent | src/gfx/loader.c:140-158 | removing a slot that is not on the list changes nothing |
| Chain.RemoveAt | src/gfx/loader.c:140-158 | on a list without repeats, removing the slot at position j cuts out position j and keeps the order of the rest |
| Chain.DistinctElements | src/gfx/loader.c:109-112 | a list without repeats visits as many slots as it is long |
| Chain.CoveringLength | src/gfx/loader.c:109-112 | a list without repeats that visits exactly the slots below n has length n |
| TexturePool.ZeroedNotValid | src/gfx/loader.c:28-33 | the zero-filled pool that exists before `init_loader_caches` satisfies the invariant for no choice of lists; in it no path is cached and the free-list head is NULL, so a load that passes the decoder and GL ends EXHAUSTED (loader.c:109-111), and every count is zero, so a free ends INTERNAL (loader.c:166-169) |
| TexturePool.Range | src/gfx/loader.c:45-49 | the free list after initialisation is 0, 1, ..., n - 1 |
| TexturePool.FreshSlot | src/gfx/loader.c:43-48 | a slot after `memset` and relinking has no path, no reference and no GL texture |
| TexturePool.FreshPoolValid | src/gfx/loader.c:43-49 | the freshly initialised pool satisfies the invariant, with every slot on the free list in index order and an empty chain |
| TexturePool.PathsIdentifySlots | src/gfx/loader.c:61-70 | in a valid pool no two slots hold the same path |
| TexturePool.ExhaustedMeansFull | src/gfx/loader.c:109-112 | when the free-list head is NULL, every slot holds a path and all 512 are on the chain, so EXHAUSTED is reported only with all 512 slots loaded |
| TexturePool.Released | src/gfx/loader.c:140-165 | after a release the slot is zeroed and linked to the old free-list head; any slot that linked to it now links to its successor; every other slot is unchanged |
| TexturePool.NotSuccessor | src/gfx/loader.c:145-152 | no slot of a list links to a slot that is not on it |
| TexturePool.OnlyPredecessor | src/gfx/loader.c:145-152 | on a list, only position j - 1 links to position j |
| TexturePool.FreeNotChained | src/gfx/loader.c:129-171 | a slot on the free list is not on the chain |
| TexturePool.PredecessorAt | src/gfx/loader.c:142-152 | in a valid pool the only slot linking to chain position j is position j - 1, and nothing links to the chain head |
| TexturePool.ReleasedIsUnlinked | src/gfx/loader.c:140-165 | unlinking by hand (at the bucket head, or at the predecessor the walk finds) then zeroing and pushing the slot gives exactly `Released` |
| TexturePool.UnlinkIgnoresRefs | src/gfx/loader.c:138-165 | the unlink reads no reference count, so decrementing first makes no difference once the slot is zeroed |
| TexturePool.UnlinkIsRelease | src/gfx/loader.c:138-165 | dropping the last reference and then unlinking by hand is `Released` |
| TexturePool.ReleaseDropped | src/gfx/loader.c:138-165 | a release takes the last reference, the path and the GL name from its slot, and no other count, path or GL name changes |
| TexturePool.DecrementDropped | src/gfx/loader.c:138-170 | a free that does not reach zero changes that slot's count and nothing else |
| TexturePool.NothingTaken | src/gfx/loader.c:54-58 | a texture load that stores no texture changes no count, path or GL name |
| TexturePool.RetainedByUpdate | src/gfx/loader.c:67 | incrementing one slot's count in place changes that count by one and nothing else |
| TexturePool.RetainTaken | src/gfx/loader.c:63-70 | a cache hit takes one more reference on a slot that already holds the path, and keeps its GL name |
| TexturePool.FillTaken | src/gfx/loader.c:116-122 | a miss fills a free slot with the path, a count of one and the GL name of an uploadable image |
| TexturePool.RecountValid | src/gfx/loader.c:67 | changing one count in a way that still fits the slot's list keeps the invariant |
| TexturePool.TakeLists | src/gfx/loader.c:116-119 | popping the free-list head and pushing it on bucket 0 leaves both lists well linked |
| TexturePool.TakeTagged | src/gfx/loader.c:116-122 | the taken slot leaves the free list and joins the chain with a path |
| TexturePool.TakeCovered | src/gfx/loader.c:116-122 | every slot still without a path is on the rest of the free list |
| TexturePool.TakeDistinct | src/gfx/loader.c:61-72 | a path that was not cached appears at most once on the chain afterwards |
| TexturePool.TakeValid | src/gfx/loader.c:113-122 | taking the free-list head for an uncached path with a non-zero GL name keeps the invariant; the head's successor becomes the free-list head and the slot heads bucket 0 |
| TexturePool.ReleaseFreeLinked | src/gfx/loader.c:163-165 | the released slot heads a well-linked free list in front of the old one |
| TexturePool.ReleaseChainHead | src/gfx/loader.c:142-143 | releasing the bucket head leaves the chain starting at its successor |
| TexturePool.ReleaseChainInterior | src/gfx/loader.c:144-152 | releasing an interior slot leaves the chain without it, in order, from the same head |
| TexturePool.ReleaseLists | src/gfx/loader.c:140-165 | a release keeps both lists well linked |
| TexturePool.ReleaseTagged | src/gfx/loader.c:160-165 | the released slot, now without a path, is on the free list and every chained slot still holds a path |
| TexturePool.ReleaseCovered | src/gfx/loader.c:160-165 | after a release every slot is on the list that its path calls for |
| TexturePool.ReleaseDistinct | src/gfx/loader.c:140-158 | dropping a slot from the chain keeps the chain's paths distinct |
| TexturePool.ReleaseValid | src/gfx/loader.c:140-165 | releasing a loaded slot keeps the invariant; the slot heads the free list, leaves the chain, and the rest of the chain keeps its order |
| Assembly.LastSeparator | src/gfx/loader.c:184-194 | the index of a '/' or '\\' with none after it, or -1 when the path has none |
| Assembly.DirectoryOf | src/gfx/loader.c:184-194 | a prefix of the path that is empty or ends in a separator, with no separator after it |
| Assembly.DirectoryOfIsUnique | src/gfx/loader.c:184-194 | those three properties determine the directory |
| Assembly.FindLastSeparator | src/gfx/loader.c:184-194 | the backward scan from the terminator down to index 0 stops at `LastSeparator` |
| Assembly.DirectoryAsWritten | src/gfx/loader.c:181-194 | the directory as written: the path through its last separator, or the whole path when it has no separator |
| Assembly.Directory | src/gfx/loader.c:184-194 | the corrected directory: `DirectoryOf` the path, empty when it has no separator |
| Assembly.BareModelNameKeptAsDirectory | src/gfx/loader.c:184-194 | for "cube.obj" with texture "cube.png", the corrected directory resolves to "cube.png", while the as-written directory does not |
| Assembly.TexturePath | src/gfx/loader.c:296-300 | the full texture path is the directory's bytes followed by the material path's bytes |
| Assembly.FlatVertices | src/gfx/loader.c:257-274 | the merged vertex buffer holds `total_vertices` entries |
| Assembly.MeshElements | src/gfx/loader.c:275-279 | one mesh's run of indices holds three per triangle |
| Assembly.FlatElements | src/gfx/loader.c:258-279 | the merged element buffer holds three indices per triangle of the scene |
| Assembly.Layout | src/gfx/loader.c:256-283 | there is one submodel per mesh |
| Assembly.PrefixFits | src/gfx/loader.c:246-251 | the running totals grow by each mesh's counts and never pass the scene's totals |
| Assembly.MeshElementsAt | src/gfx/loader.c:276-278 | index 3f + c of a mesh's run is corner c of triangle f plus the bias |
| Assembly.FlatVerticesAt | src/gfx/loader.c:265-274 | vertex j of mesh m sits at the number of earlier vertices plus j in the merged buffer |
| Assembly.FlatElementsAt | src/gfx/loader.c:275-283 | mesh m's run sits after three indices per earlier triangle, biased by the number of earlier vertices |
| Assembly.LayoutAt | src/gfx/loader.c:280-283 | submodel m draws three indices per triangle of mesh m, from byte offset 4 × (3 × the earlier triangles) |
| Assembly.SubmodelsTileElements | src/gfx/loader.c:280-283 | the first submodel starts at 0; each starts where the previous one ends; the last ends at the end of the element buffer |
| Assembly.MergedCornerAt | src/gfx/loader.c:275-283 | corner c of triangle f of mesh m is stored in the merged element buffer as the number of earlier vertices plus the corner's index |
| Assembly.MergedTrianglesMatchMeshes | src/gfx/loader.c:245-283 | drawing submodel m from the merged buffers draws exactly the vertices that mesh m's triangles name |
| Assembly.CopyVertices | src/gfx/loader.c:265-274 | mesh vertex v lands at `v + vertex_offset` and nothing else in the buffer changes |
| Assembly.CopyElements | src/gfx/loader.c:275-279 | the biased corners of triangle e land at `e * 3 + 0..2 + element_offset` and nothing else changes |
| Assembly.CountTotals | src/gfx/loader.c:245-251 | the loop computes the total numbers of vertices and triangles |
| Assembly.AppendMesh | src/gfx/loader.c:263-283 | one pass writes mesh m's part of the merged buffers and its submodel; nothing else changes |
| Assembly.MergeMeshes | src/gfx/loader.c:245-283 | the loop produces the merged vertex buffer, the merged element buffer and the submodel layout |
| Loader.Count | src/gfx/loader.c:342-344 | the number of submodels holding slot i is zero exactly when none holds it |
| Loader.LaidOutStep | src/gfx/loader.c:280-301 | each finished mesh adds its layout submodel with its diffuse |
| Loader.LoadFailedAt | src/gfx/loader.c:61-112 | a texture load that stored NULL for submodel k had a path that was not cached before the model load and that no earlier submodel with the same texture holds; if its image could be uploaded, every slot free before the model load had been filled for an earlier submodel |
| Loader.FailuresStep | src/gfx/loader.c:296-301 | one more submodel, stored or failed for those reasons, keeps every NULL diffuse explained |
| Loader.SharedTextureSharesSlot | src/gfx/loader.c:61-70 | two submodels whose meshes name the same diffuse texture and that both hold a slot hold the same slot |
| Loader.RecountedNothing | src/gfx/loader.c:173-199 | before any texture load of a model, nothing is recounted |
| Loader.RecountedStep | src/gfx/loader.c:301 | one more texture load extends the recount by the submodel it fills |
| Loader.FilledNothing | src/gfx/loader.c:173-199 | before any texture load of a model, no slot has been filled |
| Loader.FilledStep | src/gfx/loader.c:296-301 | after one more texture load, each slot that was free and is now loaded is the diffuse of some finished submodel whose image could be uploaded, and holds the GL name handed out for it |
| Loader.DiffusesStep | src/gfx/loader.c:296-301 | every stored diffuse is a slot holding its mesh's texture path resolved against the directory |
| Loader.RecountedGrown | src/gfx/loader.c:263-303 | a model load never lowers a count and never changes the path of a loaded slot |
| Loader.FreedNothing | src/gfx/loader.c:335-341 | before any free, nothing is freed: a slot without references holds no path and no GL name |
| Loader.FreedStep | src/gfx/loader.c:342-344 | freeing submodel k's diffuse extends the account of the first k submodels to the first k + 1 |
| Loader.LoaderCaches.constructor | src/gfx/loader.c:28-33 | the module-level arrays have their declared sizes; both pools hold only zeroed slots and both hash maps only NULL buckets; the free-list heads are NULL; this state does not satisfy the cache invariant |
| Loader.LoaderCaches.InitLoaderCaches | src/gfx/loader.c:35-51 | returns SUCCESS; both pools are zeroed with every slot on the free list in index order; every bucket is empty; the texture invariant holds |
| Loader.LoaderCaches.InitModelPool | src/gfx/loader.c:36-42 | the model pool and its hash map are zeroed; slot i links to slot i + 1, the last to NULL; the head is slot 0 |
| Loader.LoaderCaches.InitTexturePool | src/gfx/loader.c:43-49 | the same for the texture pool |
| Loader.LoaderCaches.InitialPoolIsValid | src/gfx/loader.c:43-49 | the initialised texture pool satisfies the invariant |
| Loader.LoaderCaches.FindTexture | src/gfx/loader.c:61-72 | the walk of the bucket's chain returns a slot holding the path, and NULL exactly when no slot holds it; the bucket is `hash_code(path) % 16`, which is 0 |
| Loader.LoaderCaches.LoadTexture | src/gfx/loader.c:53-127 | NULL `dest` or `path` gives NULLPTR with nothing written. A hit returns the slot holding the path with one more reference and changes nothing else. A miss reports FILE, INTERNAL (GL name 0, or a channel count other than 3 or 4), then EXHAUSTED, in that order, and changes nothing. Otherwise the free-list head takes the path with one reference and the GL name, and moves to the front of bucket 0. GL names of other slots do not change. `*dest` is set exactly on SUCCESS. The invariant is kept |
| Loader.LoaderCaches.LoadNew | src/gfx/loader.c:74-126 | the miss path of `naxa_load_texture`: its error cases in order, and the take of the free-list head |
| Loader.LoaderCaches.Retain | src/gfx/loader.c:67 | a hit adds one reference to that slot only, and keeps the invariant |
| Loader.LoaderCaches.TakeFreeSlot | src/gfx/loader.c:113-122 | the free-list head, which was free, now holds the path, one reference and the GL name, and heads bucket 0; its successor heads the free list |
| Loader.LoaderCaches.FreeTexture | src/gfx/loader.c:129-171 | NULL gives NULLPTR, and a pointer outside the pool gives BOUNDS, with nothing changed. Otherwise one reference is dropped. At zero the slot is released (unlinked from the head or the interior, zeroed, pushed on the free list). Below zero the result is INTERNAL with only the count changed. The invariant is kept |
| Loader.LoaderCaches.DropLastReference | src/gfx/loader.c:139-165 | dropping the last reference releases the slot and keeps the invariant |
| Loader.LoaderCaches.ReleaseSlot | src/gfx/loader.c:140-165 | the bucket head, or the predecessor the walk finds, takes over the slot's successor; the slot is zeroed and heads the free list |
| Loader.LoaderCaches.LoadDiffuseTextures | src/gfx/loader.c:263-303 | SUCCESS exactly when every mesh has a diffuse texture, otherwise INTERNAL at the first that has none. Each finished submodel is the layout's, with the slot that holds its resolved texture path or NULL. Every NULL diffuse is for a path that was not cached before the model load and that no earlier submodel with the same texture holds; its image could not be uploaded, or every slot free before the model load had been filled for an earlier submodel (`FailuresExplained`). Counts, paths and GL names move as `Recounted` says: slots that were loaded keep their GL name. Every slot that was free and is now loaded is the diffuse of a submodel whose image could be uploaded, and holds the GL name handed out for it (`FilledFrom`) |
| Loader.LoaderCaches.LoadModel | src/gfx/loader.c:173-333 | NULL `dest` or `path` gives NULLPTR. A missing or empty scene gives FILE, and a GL name of 0 gives INTERNAL; in both cases nothing changes. Otherwise the load succeeds exactly when every mesh has a diffuse texture, and `*dest` is set exactly on SUCCESS. The model holds the GL names and the layout; the buffers given to GL are the merged ones; every diffuse is loaded from the model's directory. No count is lowered, loaded slots keep their GL names, and every newly filled slot is accounted for by `FilledFrom`, and every NULL diffuse by `FailuresExplained` |
| Loader.LoaderCaches.FreeModel | src/gfx/loader.c:335-348 | NULL is a no-op returning SUCCESS. Otherwise each slot loses one reference per submodel holding it, and loses its path and GL name once its count reaches zero; a slot still loaded keeps both. The invariant is kept |

## Left out

- GL, Assimp and stb_image are parameters. The model takes the image's channel count or decode failure, the GL names handed out, and the imported meshes as inputs. It does not model the calls that only configure or upload to GL: texture parameters, `glTexImage2D`, `glBufferData` and vertex attributes. `glDelete*`, `stbi_image_free` and `aiReleaseImport` are not modelled either.
- A failure of `aiGetMaterialTexture` is modelled as a mesh whose diffuse path is None.
- Floating point: vertex positions, texture coordinates and normals are copied without arithmetic, so they are opaque `real` triples.
- Logging (`internal_logf`, `report_error`) has no effect on the result and is left out.
- Memory: `malloc`, `realloc` and `free` are not modelled. Path copies are values, and leaks are not tracked. Among the leaks: the directory when the scene is NULL; the decoded image when `glGenTextures` gives 0 (loader.c:83-88); the buffers and submodels on the INTERNAL return; the GL texture on the channel-count and EXHAUSTED errors.
- The model pool: `naxa_load_model` allocates its model with `malloc` and never uses the pool, so the model's own `refs`, `path` and `next` stay unset. The model is returned as a value holding only the GL names and the submodels.
- Bones are not part of this model.
- The length limit of an Assimp string is not modelled.
- `read_file_into_buffer`, the renderer, the window code and the log module are not part of this model.
- Assembly.MergeMeshes: does not model 32-bit overflow of `total_vertices`, `total_faces`, the offsets or the buffer sizes, because counts are unbounded here. A scene large enough to overflow them is outside the model.
- Loader.LoaderCaches.LoadTexture: does not model overflow of the `int32_t` reference count, which would take 2^31 loads of one texture.
- Loader.LoaderCaches.LoadModel: interleaves differently from loader.c. loader.c copies each mesh and loads its texture in the same pass. The model merges every mesh first, then loads the textures in mesh order. Nothing observable differs, because the buffers are discarded on the early INTERNAL return and the texture loads happen in the same order.
- Loader.LoaderCaches.LoadModel: on a material failure (INTERNAL) its contract states only that the invariant holds and that no count was lowered. The references taken before the failure are stated by `LoadDiffuseTextures`.
- Loader.LoaderCaches.LoadModel: resolves texture paths against the corrected directory `Assembly.DirectoryOf(path)`, not the one loader.c:181-194 computes. The two agree whenever the path has a '/' or '\\' (the first ensures of `Assembly.DirectoryAsWritten`). For a path with none, loader.c keeps the whole path as the directory and looks up "cube.objcube.png" for model "cube.obj" and texture "cube.png", where `DiffusesLoaded` states the slot holds "cube.png". The code as written is `Assembly.DirectoryAsWritten` (see "## Findings").
- Loader.LoaderCaches.LoadTexture, FreeTexture, LoadModel and FreeModel are modelled only after `init_loader_caches` has run: each requires the cache invariant, which the zero-filled globals do not satisfy (`TexturePool.ZeroedNotValid`). `naxa_init` (src/naxa.c:28-36) does not call `init_loader_caches` and no public header declares it, so a program that never calls it gets EXHAUSTED from every new texture and INTERNAL from every free of a pool slot; `ZeroedNotValid` states these facts about the zero-filled pool, but the operations themselves are not specified there.
- Assembly.Mesh: every mesh is assumed to have a first texture-coordinate set and normals, and every face exactly three indices. loader.c:269-278 reads `mTextureCoords[0]`, `mNormals` and `mIndices[2]` without checking; on a mesh without them the C code reads through NULL or out of bounds, which is not modelled.
- Loader.LoaderCaches.ReleaseSlot: the INTERNAL return of loader.c:153-157 (the slot missing from its chain) cannot happen under the pool invariant, so it is an impossible branch here.

## Findings

| source | as written | input that shows it | evidently intended | confidence | as-written member | corrected member |
|---|---|---|---|---|---|---|
| src/gfx/loader.c:184-194 | when the path has no '/' or '\\', the scan ends without truncating, so the directory is the whole model path | model "cube.obj" with diffuse "cube.png": the texture is looked up as "cube.objcube.png" | an empty directory, so that "cube.png" is looked up beside the model | high; not executed | Assembly.DirectoryAsWritten, Assembly.BareModelNameKeptAsDirectory | Assembly.Directory, Assembly.DirectoryOf |

=== FILE: assembly.dfy ===
/** The pure part of `naxa_load_model` (src/gfx/loader.c): the directory that
    relative texture paths are resolved against, and the merge of every mesh
    of an imported scene into one vertex buffer and one element buffer. */
module Assembly {
  import opened CTypes
  import opened Struct

  // ---------------------------------------------------------------------------
  // Directory extraction

  /** '/' or '\'. */
  predicate IsSeparator(b: Byte)
  {
    b == 0x2F || b == 0x5C
  }

  /** The index of the last separator of `s`, or -1 when it has none. */
  function LastSeparator(s: seq<Byte>): (i: int)
    ensures -1 <= i < |s|
    ensures i >= 0 ==> IsSeparator(s[i])
    ensures forall j :: i < j < |s| ==> !IsSeparator(s[j])
  {
    if s == [] then -1
    else if IsSeparator(s[|s| - 1]) then |s| - 1
    else LastSeparator(s[..|s| - 1])
  }

  /** The directory part of `path`: everything up to and including its last
      separator, and nothing at all when it has none. */
  function DirectoryOf(path: CString): (dir: CString)
    ensures |dir| <= |path| && dir == path[..|dir|]
    ensures dir == [] || IsSeparator(dir[|dir| - 1])
    ensures forall j :: |dir| <= j < |path| ==> !IsSeparator(path[j])
  {
    path[..LastSeparator(path) + 1]
  }

  /** The three properties `DirectoryOf` promises pin its result down: any
      prefix ending in a separator (or empty) with no separator after it is
      that directory. */
  lemma DirectoryOfIsUnique(path: CString, dir: seq<Byte>)
    requires |dir| <= |path| && dir == path[..|dir|]
    requires dir == [] || IsSeparator(dir[|dir| - 1])
    requires forall j :: |dir| <= j < |path| ==> !IsSeparator(path[j])
    ensures dir == DirectoryOf(path)
  {
    var d := DirectoryOf(path);
    assert |d| == |dir|;
  }

  /** The backward scan of loader.c:184-194 over the copied, terminated path:
      from the terminator down to index 0, stop at the first separator. */
  method FindLastSeparator(path: CString) returns (i: int)
    ensures i == LastSeparator(path)
  {
    var directory := path + [NUL];
    i := |path|;
    while i >= 0
      invariant -1 <= i <= |path|
      invariant forall j :: i < j < |path| ==> !IsSeparator(path[j])
      decreases i + 1
    {
      if IsSeparator(directory[i]) {
        return;
      }
      i := i - 1;
    }
  }

  /** The directory as loader.c:181-194 computes it: the path through its last
      separator, but the whole path, unchanged, when it has no separator. */
  method DirectoryAsWritten(path: CString) returns (dir: CString)
    ensures LastSeparator(path) >= 0 ==> dir == DirectoryOf(path)
    ensures LastSeparator(path) < 0 ==> dir == path
  {
    var i := FindLastSeparator(path);
    if i >= 0 {
      dir := path[..i + 1];
    } else {
      dir := path;
    }
  }

  /** The directory relative texture paths are meant to be resolved against;
      empty (the working directory) when the path has no separator. */
  method Directory(path: CString) returns (dir: CString)
    ensures dir == DirectoryOf(path)
  {
    var i := FindLastSeparator(path);
    if i >= 0 {
      dir := path[..i + 1];
    } else {
      dir := [];
    }
  }

  /** "cube.obj" has no separator: its directory is empty, so a texture
      "cube.png" beside it resolves to "cube.png", while the as-written code
      keeps "cube.obj" as the directory and looks up "cube.objcube.png". */
  lemma BareModelNameKeptAsDirectory()
    ensures var model: CString := [0x63, 0x75, 0x62, 0x65, 0x2E, 0x6F, 0x62, 0x6A];
            var texture: CString := [0x63, 0x75, 0x62, 0x65, 0x2E, 0x70, 0x6E, 0x67];
            && LastSeparator(model) < 0
            && DirectoryOf(model) + texture == texture
            && model + texture != texture
  {
    var model: CString := [0x63, 0x75, 0x62, 0x65, 0x2E, 0x6F, 0x62, 0x6A];
    var texture: CString := [0x63, 0x75, 0x62, 0x65, 0x2E, 0x70, 0x6E, 0x67];
    assert LastSeparator(model) < 0;
    assert |model + texture| != |texture|;
  }

  /** The full path of a texture named `name` by a model in directory
      `dir`: the directory's bytes followed by the name's, terminated once. */
  function TexturePath(dir: CString, name: CString): (p: CString)
    ensures |p| == |dir| + |name|
    ensures p[..|dir|] == dir && p[|dir|..] == name
  {
    assert forall i :: 0 <= i < |dir| + |name| ==> (dir + name)[i] == if i < |dir| then dir[i] else name[i - |dir|];
    dir + name
  }

  // ---------------------------------------------------------------------------
  // Buffer merge

  /** `VertexData_t`: position, first texture-coordinate set and normal, copied
      from the importer without arithmetic. */
  datatype VertexData = VertexData(position: (real, real, real), texture: (real, real), normal: (real, real, real))

  /** A triangle, as three indices into the vertices of its own mesh. */
  datatype Face = Face(i0: nat, i1: nat, i2: nat)

  /** One imported mesh: its vertices, its triangles, and the path of its
      material's diffuse texture (None when the importer reports none). */
  datatype Mesh = Mesh(vertices: seq<VertexData>, faces: seq<Face>, diffuse: Option<CString>)

  /** Corner `c` of triangle `f`. */
  function Corner(f: Face, c: nat): nat
    requires c < 3
  {
    if c == 0 then f.i0 else if c == 1 then f.i1 else f.i2
  }

  /** Every triangle of the mesh names vertices of that mesh, as the importer
      guarantees. */
  predicate ValidMesh(mesh: Mesh)
  {
    forall f, c :: 0 <= f < |mesh.faces| && 0 <= c < 3 ==> Corner(mesh.faces[f], c) < |mesh.vertices|
  }

  predicate ValidScene(meshes: seq<Mesh>)
  {
    forall m :: 0 <= m < |meshes| ==> ValidMesh(meshes[m])
  }

  /** `total_vertices` of loader.c:246-251. */
  function TotalVertices(meshes: seq<Mesh>): nat
  {
    if meshes == [] then 0
    else TotalVertices(meshes[..|meshes| - 1]) + |meshes[|meshes| - 1].vertices|
  }

  /** `total_faces` of loader.c:246-251. */
  function TotalFaces(meshes: seq<Mesh>): nat
  {
    if meshes == [] then 0
    else TotalFaces(meshes[..|meshes| - 1]) + |meshes[|meshes| - 1].faces|
  }

  /** The merged vertex buffer: every mesh's vertices, in scene order. */
  function FlatVertices(meshes: seq<Mesh>): (vs: seq<VertexData>)
    ensures |vs| == TotalVertices(meshes)
  {
    if meshes == [] then []
    else FlatVertices(meshes[..|meshes| - 1]) + meshes[|meshes| - 1].vertices
  }

  /** The indices of `faces`, three per triangle, each moved up by `bias`. */
  function MeshElements(faces: seq<Face>, bias: nat): (es: seq<nat>)
    ensures |es| == 3 * |faces|
  {
    if faces == [] then []
    else
      var f := faces[|faces| - 1];
      MeshElements(faces[..|faces| - 1], bias) + [f.i0 + bias, f.i1 + bias, f.i2 + bias]
  }

  /** The merged element buffer: each mesh's indices, biased by the number of
      vertices of the meshes before it. */
  function FlatElements(meshes: seq<Mesh>): (es: seq<nat>)
    ensures |es| == 3 * TotalFaces(meshes)
  {
    if meshes == [] then []
    else
      var prefix := meshes[..|meshes| - 1];
      FlatElements(prefix) + MeshElements(meshes[|meshes| - 1].faces, TotalVertices(prefix))
  }

  /** One submodel per mesh: its index count and the byte offset (4 bytes per
      index) of its first index; the diffuse texture is not set yet. */
  function Layout(meshes: seq<Mesh>): (subs: seq<Submodel>)
    ensures |subs| == |meshes|
  {
    if meshes == [] then []
    else
      var prefix := meshes[..|meshes| - 1];
      Layout(prefix) + [Submodel(3 * |meshes[|meshes| - 1].faces|, 4 * (3 * TotalFaces(prefix)), None)]
  }

  /** The meshes before `m` together with mesh `m` fit in the totals. */
  lemma {:induction false} PrefixFits(meshes: seq<Mesh>, m: nat)
    requires m < |meshes|
    ensures TotalVertices(meshes[..m + 1]) == TotalVertices(meshes[..m]) + |meshes[m].vertices|
    ensures TotalFaces(meshes[..m + 1]) == TotalFaces(meshes[..m]) + |meshes[m].faces|
    ensures TotalVertices(meshes[..m + 1]) <= TotalVertices(meshes)
    ensures TotalFaces(meshes[..m + 1]) <= TotalFaces(meshes)
  {
    assert meshes[..m + 1][..m] == meshes[..m];
    if m + 1 < |meshes| {
      var prefix := meshes[..|meshes| - 1];
      assert prefix[..m + 1] == meshes[..m + 1];
      assert prefix[..m] == meshes[..m];
      PrefixFits(prefix, m);
    } else {
      assert meshes[..m + 1] == meshes;
    }
  }

  /** Index `3 * f + c` of a mesh's element run is corner `c` of triangle `f`
      plus the bias. */
  lemma {:induction false} MeshElementsAt(faces: seq<Face>, bias: nat, f: nat, c: nat)
    requires f < |faces| && c < 3
    ensures MeshElements(faces, bias)[3 * f + c] == Corner(faces[f], c) + bias
  {
    var prefix := faces[..|faces| - 1];
    if f < |faces| - 1 {
      assert prefix[f] == faces[f];
      MeshElementsAt(prefix, bias, f, c);
    }
  }

  /** Vertex `j` of mesh `m` sits in the merged buffer right after the
      vertices of the meshes before `m`. */
  lemma {:induction false} FlatVerticesAt(meshes: seq<Mesh>, m: nat, j: nat)
    requires m < |meshes| && j < |meshes[m].vertices|
    ensures TotalVertices(meshes[..m]) + j < TotalVertices(meshes)
    ensures FlatVertices(meshes)[TotalVertices(meshes[..m]) + j] == meshes[m].vertices[j]
  {
    var prefix := meshes[..|meshes| - 1];
    if m < |meshes| - 1 {
      assert prefix[..m] == meshes[..m];
      assert prefix[m] == meshes[m];
      FlatVerticesAt(prefix, m, j);
    } else {
      assert meshes[..m] == prefix;
    }
  }

  /** The element run of mesh `m` sits in the merged element buffer right
      after the runs of the meshes before it, biased by their vertex count. */
  lemma {:induction false} FlatElementsAt(meshes: seq<Mesh>, m: nat, k: nat)
    requires m < |meshes| && k < 3 * |meshes[m].faces|
    ensures 3 * TotalFaces(meshes[..m]) + k < 3 * TotalFaces(meshes)
    ensures FlatElements(meshes)[3 * TotalFaces(meshes[..m]) + k]
         == MeshElements(meshes[m].faces, TotalVertices(meshes[..m]))[k]
  {
    var prefix := meshes[..|meshes| - 1];
    if m < |meshes| - 1 {
      assert prefix[..m] == meshes[..m];
      assert prefix[m] == meshes[m];
      FlatElementsAt(prefix, m, k);
    } else {
      assert meshes[..m] == prefix;
    }
  }

  /** Submodel `m` draws the `3 * |faces|` indices that start after the
      indices of all earlier meshes. */
  lemma {:induction false} LayoutAt(meshes: seq<Mesh>, m: nat)
    requires m < |meshes|
    ensures Layout(meshes)[m] == Submodel(3 * |meshes[m].faces|, 4 * (3 * TotalFaces(meshes[..m])), None)
  {
    var prefix := meshes[..|meshes| - 1];
    if m < |meshes| - 1 {
      assert prefix[..m] == meshes[..m];
      assert prefix[m] == meshes[m];
      LayoutAt(prefix, m);
    } else {
      assert meshes[..m] == prefix;
    }
  }

  /** The submodels tile the element buffer: each starts where the previous
      one ends, and the last one ends at the end of the buffer. */
  lemma SubmodelsTileElements(meshes: seq<Mesh>, m: nat)
    requires m < |meshes|
    ensures m == 0 ==> Layout(meshes)[m].offset == 0
    ensures m + 1 < |meshes| ==> Layout(meshes)[m + 1].offset == Layout(meshes)[m].offset + 4 * Layout(meshes)[m].vertexCount
    ensures m + 1 == |meshes| ==> Layout(meshes)[m].offset + 4 * Layout(meshes)[m].vertexCount == 4 * |FlatElements(meshes)|
  {
    LayoutAt(meshes, m);
    PrefixFits(meshes, m);
    if m + 1 < |meshes| {
      LayoutAt(meshes, m + 1);
    } else {
      assert meshes[..m + 1] == meshes;
    }
  }

  /** Corner `c` of triangle `f` of mesh `m` lands in the merged element
      buffer at position `3 * f + c` of the mesh's run, moved up by the
      number of vertices before the mesh. */
  lemma MergedCornerAt(meshes: seq<Mesh>, m: nat, f: nat, c: nat)
    requires m < |meshes| && f < |meshes[m].faces| && c < 3
    ensures 3 * TotalFaces(meshes[..m]) + 3 * f + c < |FlatElements(meshes)|
    ensures FlatElements(meshes)[3 * TotalFaces(meshes[..m]) + 3 * f + c]
         == TotalVertices(meshes[..m]) + Corner(meshes[m].faces[f], c)
  {
    var k := 3 * f + c;
    assert k < 3 * |meshes[m].faces|;
    FlatElementsAt(meshes, m, k);
    MeshElementsAt(meshes[m].faces, TotalVertices(meshes[..m]), f, c);
  }

  /** Drawing submodel `m` from the merged buffers draws exactly the
      triangles of mesh `m`: the index at position `3 * f + c` of its range
      names, in the merged vertex buffer, the vertex that corner `c` of
      triangle `f` names in the mesh. */
  lemma MergedTrianglesMatchMeshes(meshes: seq<Mesh>, m: nat, f: nat, c: nat)
    requires ValidScene(meshes)
    requires m < |meshes| && f < |meshes[m].faces| && c < 3
    ensures var start := 3 * TotalFaces(meshes[..m]);
            && Layout(meshes)[m].offset == 4 * start
            && 3 * f + c < Layout(meshes)[m].vertexCount
            && start + 3 * f + c < |FlatElements(meshes)|
            && FlatElements(meshes)[start + 3 * f + c] < |FlatVertices(meshes)|
            && FlatVertices(meshes)[FlatElements(meshes)[start + 3 * f + c]]
               == meshes[m].vertices[Corner(meshes[m].faces[f], c)]
  {
    LayoutAt(meshes, m);
    MergedCornerAt(meshes, m, f, c);
    assert ValidMesh(meshes[m]);
    FlatVerticesAt(meshes, m, Corner(meshes[m].faces[f], c));
  }

  /** The vertex loop of loader.c:265-274: mesh vertex `v` goes to
      `vertices[v + vertexOffset]`; nothing else changes. */
  method CopyVertices(vbuf: array<VertexData>, vertexOffset: nat, source: seq<VertexData>)
    requires vertexOffset + |source| <= vbuf.Length
    modifies vbuf
    ensures forall j :: 0 <= j < vbuf.Length ==>
      vbuf[j] == if vertexOffset <= j < vertexOffset + |source| then source[j - vertexOffset] else old(vbuf[j])
  {
    for vIdx := 0 to |source|
      invariant forall j :: 0 <= j < vbuf.Length ==>
        vbuf[j] == if vertexOffset <= j < vertexOffset + vIdx then source[j - vertexOffset] else old(vbuf[j])
    {
      vbuf[vIdx + vertexOffset] := source[vIdx];
    }
  }

  /** The index loop of loader.c:275-279: the corners of triangle `e` go to
      `elements[e * 3 + 0..2 + elementOffset]`, biased by `vertexOffset`;
      nothing else changes. */
  method CopyElements(ebuf: array<nat>, elementOffset: nat, faces: seq<Face>, vertexOffset: nat)
    requires elementOffset + 3 * |faces| <= ebuf.Length
    modifies ebuf
    ensures forall j :: 0 <= j < ebuf.Length ==>
      ebuf[j] == if elementOffset <= j < elementOffset + 3 * |faces|
                 then MeshElements(faces, vertexOffset)[j - elementOffset] else old(ebuf[j])
  {
    for eIdx := 0 to |faces|
      invariant forall j :: 0 <= j < ebuf.Length ==>
        ebuf[j] == if elementOffset <= j < elementOffset + 3 * eIdx
                   then MeshElements(faces, vertexOffset)[j - elementOffset] else old(ebuf[j])
    {
      var face := faces[eIdx];
      MeshElementsAt(faces, vertexOffset, eIdx, 0);
      MeshElementsAt(faces, vertexOffset, eIdx, 1);
      MeshElementsAt(faces, vertexOffset, eIdx, 2);
      ebuf[eIdx * 3 + 0 + elementOffset] := face.i0 + vertexOffset;
      ebuf[eIdx * 3 + 1 + elementOffset] := face.i1 + vertexOffset;
      ebuf[eIdx * 3 + 2 + elementOffset] := face.i2 + vertexOffset;
    }
  }

  /** loader.c:245-251: the number of vertices and of triangles over all
      meshes. */
  method CountTotals(meshes: seq<Mesh>) returns (totalVertices: nat, totalFaces: nat)
    ensures totalVertices == TotalVertices(meshes)
    ensures totalFaces == TotalFaces(meshes)
  {
    totalVertices, totalFaces := 0, 0;
    for i := 0 to |meshes|
      invariant totalVertices == TotalVertices(meshes[..i])
      invariant totalFaces == TotalFaces(meshes[..i])
    {
      PrefixFits(meshes, i);
      totalVertices := totalVertices + |meshes[i].vertices|;
      totalFaces := totalFaces + |meshes[i].faces|;
    }
    assert meshes[..|meshes|] == meshes;
  }

  /** One pass of the loop at loader.c:265-282: mesh `m` goes into the
      merged buffers at the running offsets and its submodel is recorded;
      every other entry is left alone. */
  method AppendMesh(meshes: seq<Mesh>, m: nat, vbuf: array<VertexData>, ebuf: array<nat>, subs: array<Submodel>,
                    vertexOffset: nat, elementOffset: nat)
    requires m < |meshes| == subs.Length
    requires vbuf.Length == TotalVertices(meshes) && ebuf.Length == 3 * TotalFaces(meshes)
    requires vertexOffset == TotalVertices(meshes[..m]) && elementOffset == 3 * TotalFaces(meshes[..m])
    modifies vbuf, ebuf, subs
    ensures forall j :: 0 <= j < vbuf.Length ==>
      vbuf[j] == if vertexOffset <= j < vertexOffset + |meshes[m].vertices| then FlatVertices(meshes)[j] else old(vbuf[j])
    ensures forall j :: 0 <= j < ebuf.Length ==>
      ebuf[j] == if elementOffset <= j < elementOffset + 3 * |meshes[m].faces| then FlatElements(meshes)[j] else old(ebuf[j])
    ensures forall j :: 0 <= j < subs.Length ==>
      subs[j] == if j == m then Layout(meshes)[j] else old(subs[j])
  {
    var mesh := meshes[m];
    PrefixFits(meshes, m);
    CopyVertices(vbuf, vertexOffset, mesh.vertices);
    forall j | vertexOffset <= j < vertexOffset + |mesh.vertices|
      ensures vbuf[j] == FlatVertices(meshes)[j]
    {
      FlatVerticesAt(meshes, m, j - vertexOffset);
    }
    CopyElements(ebuf, elementOffset, mesh.faces, vertexOffset);
    forall j | elementOffset <= j < elementOffset + 3 * |mesh.faces|
      ensures ebuf[j] == FlatElements(meshes)[j]
    {
      FlatElementsAt(meshes, m, j - elementOffset);
    }
    LayoutAt(meshes, m);
    subs[m] := Submodel(3 * |mesh.faces|, 4 * elementOffset, None);
  }

  /** loader.c:245-283: size the buffers, then copy every mesh's vertices and
      biased indices into one buffer each and record each submodel's range. */
  method MergeMeshes(meshes: seq<Mesh>) returns (vertices: seq<VertexData>, elements: seq<nat>, submodels: seq<Submodel>)
    ensures vertices == FlatVertices(meshes)
    ensures elements == FlatElements(meshes)
    ensures submodels == Layout(meshes)
  {
    var totalVertices, totalFaces := CountTotals(meshes);
    var subs := new Submodel[|meshes|];
    var vbuf := new VertexData[totalVertices];
    var ebuf := new nat[3 * totalFaces];
    var vertexOffset, elementOffset := 0, 0;
    for meshIdx := 0 to |meshes|
      invariant vertexOffset == TotalVertices(meshes[..meshIdx]) <= totalVertices
      invariant elementOffset == 3 * TotalFaces(meshes[..meshIdx]) <= 3 * totalFaces
      invariant forall j :: 0 <= j < vertexOffset ==> vbuf[j] == FlatVertices(meshes)[j]
      invariant forall j :: 0 <= j < elementOffset ==> ebuf[j] == FlatElements(meshes)[j]
      invariant forall j :: 0 <= j < meshIdx ==> subs[j] == Layout(meshes)[j]
    {
      AppendMesh(meshes, meshIdx, vbuf, ebuf, subs, vertexOffset, elementOffset);
      PrefixFits(meshes, meshIdx);
      vertexOffset := vertexOffset + |meshes[meshIdx].vertices|;
      elementOffset := elementOffset + 3 * |meshes[meshIdx].faces|;
    }
    assert meshes[..|meshes|] == meshes;
    vertices, elements, submodels := vbuf[..], ebuf[..], subs[..];
  }
}

=== FILE: chain.dfy ===
/** Singly linked lists threaded through the `next` fields of the texture
    pool. A list is described by the sequence of slot indices it visits, from
    its head pointer to the NULL that ends it. */
module Chain {
  import opened CTypes
  import opened Struct

  /** No slot index appears twice. */
  predicate Distinct(L: seq<nat>)
  {
    forall k, l :: 0 <= k < l < |L| ==> L[k] != L[l]
  }

  /** What the `next` field at position `k` of the list must hold: the
      following index, or NULL at the end. */
  function NextOf(L: seq<nat>, k: nat): int
    requires k < |L|
  {
    if k + 1 < |L| then L[k + 1] else NULL
  }

  /** Following `next` from `head` through the pool `s` visits exactly the
      slots `L`, in order, and then reaches NULL. */
  ghost predicate Linked(s: seq<Texture>, head: int, L: seq<nat>)
  {
    (forall k :: 0 <= k < |L| ==> L[k] < |s|) &&
    Distinct(L) &&
    head == (if L == [] then NULL else L[0]) &&
    (forall k :: 0 <= k < |L| ==> s[L[k]].next == NextOf(L, k))
  }

  /** Taking the head off a list leaves a list starting at the head's `next`. */
  lemma LinkedTail(s: seq<Texture>, head: int, L: seq<nat>)
    requires Linked(s, head, L) && L != []
    ensures Linked(s, s[L[0]].next, L[1..])
  {
    forall k | 0 <= k < |L[1..]|
      ensures s[L[1..][k]].next == NextOf(L[1..], k)
    {
      assert s[L[k + 1]].next == NextOf(L, k + 1);
    }
  }

  /** A slot whose `next` is the head of a list, and which is not on it,
      can be pushed in front of it. */
  lemma LinkedCons(s: seq<Texture>, h: nat, L: seq<nat>)
    requires h < |s| && h !in L
    requires Linked(s, s[h].next, L)
    ensures Linked(s, h, [h] + L)
  {
    var L' := [h] + L;
    forall k | 0 <= k < |L'|
      ensures s[L'[k]].next == NextOf(L', k)
    {
      if k > 0 {
        assert L'[k] == L[k - 1];
        assert NextOf(L', k) == NextOf(L, k - 1);
      }
    }
  }

  /** A list survives any change to the pool that keeps the `next` fields of
      its own slots. */
  lemma LinkedFrame(s: seq<Texture>, t: seq<Texture>, head: int, L: seq<nat>)
    requires Linked(s, head, L)
    requires |t| == |s|
    requires forall x :: x in L ==> t[x].next == s[x].next
    ensures Linked(t, head, L)
  {
    forall k | 0 <= k < |L|
      ensures t[L[k]].next == NextOf(L, k)
    {
      assert L[k] in L;
    }
  }

  /** Position `k` of `L` with position `j` cut out is position `k` of `L`
      before the cut and position `k + 1` after it. */
  lemma CutAt(L: seq<nat>, j: nat, C: seq<nat>)
    requires j < |L| && C == L[..j] + L[j + 1..]
    ensures |C| == |L| - 1
    ensures forall k :: 0 <= k < j ==> C[k] == L[k]
    ensures forall k :: j <= k < |C| ==> C[k] == L[k + 1]
  {
  }

  /** Cutting a position out of a list without repeats leaves none. */
  lemma CutDistinct(L: seq<nat>, j: nat)
    requires Distinct(L) && j < |L|
    ensures Distinct(L[..j] + L[j + 1..])
  {
    var C := L[..j] + L[j + 1..];
    CutAt(L, j, C);
    forall k, l | 0 <= k < l < |C|
      ensures C[k] != C[l]
    {
      assert C[k] == L[if k < j then k else k + 1];
      assert C[l] == L[if l < j then l else l + 1];
    }
  }

  /** Pointing the predecessor of position `j` at the successor of `L[j]`
      drops `L[j]` from the list and keeps the order of the rest. */
  lemma LinkedUnlink(s: seq<Texture>, t: seq<Texture>, head: int, L: seq<nat>, j: nat)
    requires Linked(s, head, L) && 0 < j < |L|
    requires |t| == |s|
    requires t[L[j - 1]].next == s[L[j]].next
    requires forall x :: x in L && x != L[j - 1] ==> t[x].next == s[x].next
    ensures Linked(t, head, L[..j] + L[j + 1..])
  {
    var L' := L[..j] + L[j + 1..];
    CutAt(L, j, L');
    CutDistinct(L, j);
    forall k | 0 <= k < |L'|
      ensures L'[k] < |t|
      ensures t[L'[k]].next == NextOf(L', k)
    {
      var k0 := if k < j then k else k + 1;
      assert L'[k] == L[k0];
      if k == j - 1 {
        assert s[L[j]].next == NextOf(L, j);
      } else {
        assert L[k0] in L && L[k0] != L[j - 1];
        assert s[L[k0]].next == NextOf(L, k0);
      }
    }
  }

  /** The slots a list visits. */
  function Elements(L: seq<nat>): (e: set<nat>)
    ensures forall x :: x in e <==> x in L
  {
    if L == [] then {} else {L[0]} + Elements(L[1..])
  }

  /** The indices below `n`. */
  function Indices(n: nat): (e: set<nat>)
    ensures forall x: int :: x in e <==> 0 <= x < n
    ensures |e| == n
  {
    if n == 0 then {} else Indices(n - 1) + {n - 1}
  }

  /** A list without repeats visits as many slots as it is long. */
  lemma {:induction false} DistinctElements(L: seq<nat>)
    requires Distinct(L)
    ensures |Elements(L)| == |L|
  {
    if L != [] {
      var t := L[1..];
      assert Distinct(t) by {
        forall k, l | 0 <= k < l < |t|
          ensures t[k] != t[l]
        {
          assert t[k] == L[k + 1] && t[l] == L[l + 1];
        }
      }
      DistinctElements(t);
      assert L[0] !in t by {
        forall k | 0 <= k < |t|
          ensures t[k] != L[0]
        {
          assert t[k] == L[k + 1];
        }
      }
    }
  }

  /** A list without repeats that visits exactly the indices below `n` has
      length `n`. */
  lemma CoveringLength(L: seq<nat>, n: nat)
    requires Distinct(L)
    requires forall x: int :: x in L <==> 0 <= x < n
    ensures |L| == n
  {
    DistinctElements(L);
    assert Elements(L) == Indices(n);
  }

  /** `L` with every occurrence of `x` taken out, the rest in order. */
  function Remove(L: seq<nat>, x: nat): (r: seq<nat>)
    ensures forall y :: y in r <==> y in L && y != x
    ensures |r| <= |L|
  {
    if L == [] then []
    else if L[0] == x then Remove(L[1..], x)
    else [L[0]] + Remove(L[1..], x)
  }

  /** Removing an index that is not on the list changes nothing. */
  lemma {:induction false} RemoveAbsent(L: seq<nat>, x: nat)
    requires x !in L
    ensures Remove(L, x) == L
  {
    if L != [] {
      assert L[0] != x;
      RemoveAbsent(L[1..], x);
      assert L == [L[0]] + L[1..];
    }
  }

  /** On a list without repeats, removing `L[j]` is cutting out position `j`. */
  lemma {:induction false} RemoveAt(L: seq<nat>, j: nat)
    requires Distinct(L) && j < |L|
    ensures Remove(L, L[j]) == L[..j] + L[j + 1..]
  {
    if j == 0 {
      assert L[0] !in L[1..];
      RemoveAbsent(L[1..], L[0]);
    } else {
      assert Distinct(L[1..]) by {
        forall k, l | 0 <= k < l < |L[1..]|
          ensures L[1..][k] != L[1..][l]
        {
          assert L[1..][k] == L[k + 1] && L[1..][l] == L[l + 1];
        }
      }
      RemoveAt(L[1..], j - 1);
      assert L[1..][j - 1] == L[j];
      assert L[..j] == [L[0]] + L[1..][..j - 1];
      assert L[j + 1..] == L[1..][j..];
    }
  }
}

=== FILE: ctypes.dfy ===
/** C scalar and string types as the library uses them: fixed-width integers,
    bytes, NUL-terminated strings, and nullable values. */
module CTypes {

  /** An unsigned 8-bit C `char` as stored in memory. */
  type Byte = b: int | 0 <= b < 0x100

  /** `int32_t` */
  type int32 = x: int | -0x8000_0000 <= x < 0x8000_0000

  /** `uint32_t` */
  type uint32 = x: int | 0 <= x < 0x1_0000_0000

  const NUL: Byte := 0

  /** No byte of `s` is the terminator. */
  predicate NoNul(s: seq<Byte>)
  {
    forall i :: 0 <= i < |s| ==> s[i] != NUL
  }

  /** The bytes of a C string up to, and not including, its terminator. */
  type CString = s: seq<Byte> | NoNul(s) witness []

  /** A pointer that may be NULL. */
  datatype Option<T> = None | Some(value: T)

  /** What a `T** dest` out-parameter holds when a loader returns: `Untouched`
      when the function returned before writing it, otherwise NULL or a value. */
  datatype OutParam<T> = Untouched | Null | Set(value: T)
}

=== FILE: err.dfy ===
/** The error codes of include/naxa/err.h. */
module Err {
  import opened CTypes

  const SUCCESS: int32 := 0
  const INTERNAL: int32 := 1
  const BOUNDS: int32 := 2
  const EXHAUSTED: int32 := 3
  const TOOLONG: int32 := 4
  const FILE: int32 := 5
  const NULLPTR: int32 := 6
}

=== FILE: loader.dfy ===
/** The texture and model caches of src/gfx/loader.c.

    The texture cache is a fixed pool of 512 slots. Free slots are threaded
    through their `next` fields into a free list whose head is
    `textureNext`; loaded slots are threaded into one chain per hash bucket,
    headed by `textureHashMap`. Because `hash_code` returns 0 for every path,
    only bucket 0 ever holds a chain. The ghost fields `freeTextures` and
    `textureChain` name the slots on the free list and on the bucket-0 chain,
    in list order. */
module Loader {
  import opened CTypes
  import Err
  import opened Struct
  import opened Chain
  import opened TexturePool
  import Util
  import Assembly

  const MODEL_CACHE_SIZE: nat := 512
  const MODEL_CACHE_HASH_SIZE: nat := 16

  /** What `stbi_load` reports about a decoded image: its channel count. */
  datatype Image = Image(channels: int)

  /** What the image decoder and the GL driver give for one diffuse texture
      of a model: the decoded image (None when decoding fails) and the name
      `glGenTextures` hands out (0 when it fails). */
  datatype TextureSource = TextureSource(image: Option<Image>, handle: uint32)

  /** A fresh image can be turned into a GL texture: it decoded, GL handed
      out a name, and it has 3 or 4 channels. */
  predicate Uploadable(image: Option<Image>, handle: uint32)
  {
    image.Some? && handle != 0 && (image.value.channels == 3 || image.value.channels == 4)
  }

  /** The bucket of `path`, `hash_code(path) % TEXTURE_CACHE_HASH_SIZE`:
      `hash_code` gives 0 for every path (`Util.HashCode`). */
  function Bucket(path: CString): (b: nat)
    ensures b < TEXTURE_CACHE_HASH_SIZE
  {
    0
  }

  /** How many submodels hold slot `i` as their diffuse texture. */
  function Count(subs: seq<Submodel>, i: int): (c: nat)
    ensures c <= |subs|
    ensures c == 0 <==> forall k :: 0 <= k < |subs| ==> subs[k].diffuse != Some(i)
  {
    if subs == [] then 0
    else Count(subs[..|subs| - 1], i) + (if subs[|subs| - 1].diffuse == Some(i) then 1 else 0)
  }

  /** The reference count of a slot after a model load that took `c`
      references to it, from `r0` before: a slot that was free before the
      first of them starts again from 1. */
  function RefsAfter(r0: int, loaded0: bool, c: nat): int
  {
    if c == 0 then r0 else (if loaded0 then r0 else 0) + c
  }

  /** The diffuse a submodel keeps from `naxa_load_texture`'s `*dest`. */
  function DiffuseOf(dest: OutParam<nat>): Option<int>
  {
    if dest.Set? then Some(dest.value) else None
  }

  /** Counts, paths and GL names of the pool `s` after the loads that
      stored the diffuse textures of `subs`, from `s0` before: each slot
      gains one reference per submodel holding it (counting again from one
      if it was free), a held slot is loaded, a loaded slot keeps its path
      and its GL name, and a slot no submodel holds keeps its path and its
      GL name. */
  predicate Recounted(s0: seq<Texture>, s: seq<Texture>, subs: seq<Submodel>)
  {
    |s| == |s0| &&
    forall i :: 0 <= i < |s| ==>
      s[i].refs == RefsAfter(s0[i].refs, s0[i].path.Some?, Count(subs, i)) &&
      (Count(subs, i) == 0 ==> s[i].path == s0[i].path && s[i].texture == s0[i].texture) &&
      (Count(subs, i) > 0 ==> s[i].path.Some?) &&
      (s0[i].path.Some? ==> s[i].path == s0[i].path && s[i].texture == s0[i].texture)
  }

  /** Every slot that was free in `s0` and is loaded in `s` was filled for
      one of `subs`: that submodel holds it as its diffuse, its image could
      be uploaded, and the slot's GL name is the one GL handed out for it. */
  predicate FilledFrom(s0: seq<Texture>, s: seq<Texture>, subs: seq<Submodel>, sources: seq<TextureSource>)
  {
    |s| == |s0| && |subs| <= |sources| &&
    forall i :: 0 <= i < |s| && s0[i].path.None? && s[i].path.Some? ==>
      exists k :: 0 <= k < |subs| && subs[k].diffuse == Some(i) &&
        Uploadable(sources[k].image, sources[k].handle) && s[i].texture == sources[k].handle
  }

  /** Before any load, no slot has been filled. */
  lemma FilledNothing(s0: seq<Texture>, sources: seq<TextureSource>)
    ensures FilledFrom(s0, s0, [], sources)
  {
  }

  /** One more texture load, for the source of the next submodel, keeps
      every fill accounted for: a slot filled before keeps its GL name, and
      a slot this load fills is the new submodel's diffuse. */
  lemma FilledStep(s0: seq<Texture>, s: seq<Texture>, r: seq<Texture>, subs: seq<Submodel>,
                   sources: seq<TextureSource>, dest: OutParam<nat>, path: CString, sub: Submodel)
    requires FilledFrom(s0, s, subs, sources) && |subs| < |sources|
    requires Taken(s, r, dest, Some(path), sources[|subs|].handle, Uploadable(sources[|subs|].image, sources[|subs|].handle))
    requires sub.diffuse == DiffuseOf(dest)
    ensures FilledFrom(s0, r, subs + [sub], sources)
  {
    var subs' := subs + [sub];
    forall i | 0 <= i < |r| && s0[i].path.None? && r[i].path.Some?
      ensures exists k :: 0 <= k < |subs'| && subs'[k].diffuse == Some(i) &&
                          Uploadable(sources[k].image, sources[k].handle) && r[i].texture == sources[k].handle
    {
      if s[i].path.Some? {
        var k :| 0 <= k < |subs| && subs[k].diffuse == Some(i) &&
          Uploadable(sources[k].image, sources[k].handle) && s[i].texture == sources[k].handle;
        assert subs'[k] == subs[k];
      } else {
        assert dest == Set(i);
        assert subs'[|subs|] == sub;
      }
    }
  }

  /** The submodels finished so far are the layout's, each for a mesh with
      a diffuse texture, and differ from it only in their diffuse. */
  predicate LaidOut(meshes: seq<Assembly.Mesh>, layout: seq<Submodel>, subs: seq<Submodel>)
  {
    |subs| <= |layout| && |subs| <= |meshes| &&
    forall k :: 0 <= k < |subs| ==>
      meshes[k].diffuse.Some? && subs[k] == layout[k].(diffuse := subs[k].diffuse)
  }

  /** The next mesh, with a diffuse texture, adds its submodel. */
  lemma LaidOutStep(meshes: seq<Assembly.Mesh>, layout: seq<Submodel>, subs: seq<Submodel>, diffuse: Option<int>)
    requires LaidOut(meshes, layout, subs) && |subs| < |layout| && |subs| < |meshes| && meshes[|subs|].diffuse.Some?
    ensures LaidOut(meshes, layout, subs + [layout[|subs|].(diffuse := diffuse)])
  {
    var subs' := subs + [layout[|subs|].(diffuse := diffuse)];
    forall k | 0 <= k < |subs'|
      ensures meshes[k].diffuse.Some? && subs'[k] == layout[k].(diffuse := subs'[k].diffuse)
    {
      if k < |subs| {
        assert subs'[k] == subs[k];
      }
    }
  }

  /** Every diffuse texture held by a submodel is a slot of the pool `s`
      that holds its mesh's texture path resolved against `dir`. */
  predicate DiffusesLoaded(s: seq<Texture>, dir: CString, meshes: seq<Assembly.Mesh>, subs: seq<Submodel>)
  {
    |subs| <= |meshes| &&
    forall k :: 0 <= k < |subs| && subs[k].diffuse.Some? ==>
      0 <= subs[k].diffuse.value < |s| && meshes[k].diffuse.Some? &&
      s[subs[k].diffuse.value].path == Some(Assembly.TexturePath(dir, meshes[k].diffuse.value))
  }

  /** Why the texture load for the submodel after `earlier` stored NULL,
      in terms of the pool `s0` before the model load: its resolved path was
      not cached before the model load, no earlier submodel with the same
      texture holds a slot, and if its image could be uploaded, every slot
      free before the model load had already been filled for an earlier
      submodel. */
  predicate LoadFailed(s0: seq<Texture>, dir: CString, meshes: seq<Assembly.Mesh>, earlier: seq<Submodel>,
                       source: TextureSource)
  {
    |earlier| < |meshes| && meshes[|earlier|].diffuse.Some? &&
    !CachedIn(s0, Assembly.TexturePath(dir, meshes[|earlier|].diffuse.value)) &&
    (forall j :: 0 <= j < |earlier| && meshes[j].diffuse == meshes[|earlier|].diffuse ==> earlier[j].diffuse.None?) &&
    (Uploadable(source.image, source.handle) ==>
       forall i :: 0 <= i < |s0| && s0[i].path.None? ==>
         exists j :: 0 <= j < |earlier| && earlier[j].diffuse == Some(i))
  }

  /** Submodels whose meshes name the same diffuse texture and that both
      hold a slot hold the same one, each with its own reference. */
  lemma SharedTextureSharesSlot(s: seq<Texture>, hm: seq<int>, next: int, free: seq<nat>, chain: seq<nat>,
                                dir: CString, meshes: seq<Assembly.Mesh>, subs: seq<Submodel>, j: nat, k: nat)
    requires PoolValid(s, hm, next, free, chain) && DiffusesLoaded(s, dir, meshes, subs)
    requires j < |subs| && k < |subs| && meshes[j].diffuse == meshes[k].diffuse
    requires subs[j].diffuse.Some? && subs[k].diffuse.Some?
    ensures subs[j].diffuse == subs[k].diffuse
  {
    PathsIdentifySlots(s, hm, next, free, chain, subs[j].diffuse.value, subs[k].diffuse.value);
  }

  /** Every submodel left without a diffuse texture failed for the reasons
      `LoadFailed` gives. */
  predicate FailuresExplained(s0: seq<Texture>, dir: CString, meshes: seq<Assembly.Mesh>, subs: seq<Submodel>,
                              sources: seq<TextureSource>)
  {
    |subs| <= |sources| && |subs| <= |meshes| &&
    forall k :: 0 <= k < |subs| && subs[k].diffuse.None? ==> LoadFailed(s0, dir, meshes, subs[..k], sources[k])
  }

  /** A load that stored NULL for the next submodel, on a pool `s1` where
      its path is not cached and which is full unless the image could not
      be uploaded, failed for the reasons `LoadFailed` gives: `s1` keeps
      the paths of `s0`, holds every earlier diffuse under its path, and
      owes every slot it filled to an earlier submodel. */
  lemma LoadFailedAt(s0: seq<Texture>, s1: seq<Texture>, dir: CString, meshes: seq<Assembly.Mesh>,
                     subs: seq<Submodel>, sources: seq<TextureSource>)
    requires Recounted(s0, s1, subs) && DiffusesLoaded(s1, dir, meshes, subs) && FilledFrom(s0, s1, subs, sources)
    requires |subs| < |meshes| && |subs| < |sources| && meshes[|subs|].diffuse.Some?
    requires !CachedIn(s1, Assembly.TexturePath(dir, meshes[|subs|].diffuse.value))
    requires Uploadable(sources[|subs|].image, sources[|subs|].handle) ==> forall i :: 0 <= i < |s1| ==> s1[i].path.Some?
    ensures LoadFailed(s0, dir, meshes, subs, sources[|subs|])
  {
    var p := Assembly.TexturePath(dir, meshes[|subs|].diffuse.value);
    forall i | 0 <= i < |s0|
      ensures s0[i].path != Some(p)
    {
      assert s1[i].path != Some(p);
    }
    if Uploadable(sources[|subs|].image, sources[|subs|].handle) {
      forall i | 0 <= i < |s0| && s0[i].path.None?
        ensures exists j :: 0 <= j < |subs| && subs[j].diffuse == Some(i)
      {
        assert s1[i].path.Some?;
      }
    }
  }

  /** One more submodel, whose load either stored a slot or failed for the
      reasons `LoadFailed` gives, keeps the failures explained. */
  lemma FailuresStep(s0: seq<Texture>, dir: CString, meshes: seq<Assembly.Mesh>, subs: seq<Submodel>,
                     sources: seq<TextureSource>, sub: Submodel)
    requires FailuresExplained(s0, dir, meshes, subs, sources) && |subs| < |sources| && |subs| < |meshes|
    requires sub.diffuse.None? ==> LoadFailed(s0, dir, meshes, subs, sources[|subs|])
    ensures FailuresExplained(s0, dir, meshes, subs + [sub], sources)
  {
    var subs' := subs + [sub];
    forall k | 0 <= k < |subs'| && subs'[k].diffuse.None?
      ensures LoadFailed(s0, dir, meshes, subs'[..k], sources[k])
    {
      if k < |subs| {
        assert subs'[k] == subs[k] && subs'[..k] == subs[..k];
      } else {
        assert subs'[..k] == subs;
      }
    }
  }

  /** No slot of `s0` has lost a reference or, if loaded, its path in `s`. */
  predicate Grown(s0: seq<Texture>, s: seq<Texture>)
  {
    |s| == |s0| &&
    forall i :: 0 <= i < |s| ==>
      s[i].refs >= s0[i].refs && (s0[i].path.Some? ==> s[i].path == s0[i].path)
  }

  /** Before any load, nothing is recounted. */
  lemma RecountedNothing(s0: seq<Texture>)
    ensures Recounted(s0, s0, [])
  {
  }

  /** One more texture load extends the recount by the submodel it fills. */
  lemma RecountedStep(s0: seq<Texture>, s: seq<Texture>, r: seq<Texture>, subs: seq<Submodel>,
                      dest: OutParam<nat>, path: CString, handle: uint32, uploadable: bool, sub: Submodel)
    requires Recounted(s0, s, subs) && Taken(s, r, dest, Some(path), handle, uploadable) && sub.diffuse == DiffuseOf(dest)
    ensures Recounted(s0, r, subs + [sub])
  {
    var subs' := subs + [sub];
    assert subs'[..|subs|] == subs;
    forall i | 0 <= i < |r|
      ensures Count(subs', i) == Count(subs, i) + (if dest == Set(i) then 1 else 0)
    {
    }
  }

  /** One more texture load keeps every stored diffuse loaded, and adds the
      one it stored. */
  lemma DiffusesStep(s: seq<Texture>, r: seq<Texture>, dir: CString, meshes: seq<Assembly.Mesh>,
                     subs: seq<Submodel>, dest: OutParam<nat>, handle: uint32, uploadable: bool, sub: Submodel)
    requires DiffusesLoaded(s, dir, meshes, subs) && |subs| < |meshes| && meshes[|subs|].diffuse.Some?
    requires Taken(s, r, dest, Some(Assembly.TexturePath(dir, meshes[|subs|].diffuse.value)), handle, uploadable)
    requires sub.diffuse == DiffuseOf(dest) && (dest.Set? ==> dest.value < |s|)
    ensures DiffusesLoaded(r, dir, meshes, subs + [sub])
  {
    var subs' := subs + [sub];
    forall k | 0 <= k < |subs'| && subs'[k].diffuse.Some?
      ensures 0 <= subs'[k].diffuse.value < |r| && meshes[k].diffuse.Some?
      ensures r[subs'[k].diffuse.value].path == Some(Assembly.TexturePath(dir, meshes[k].diffuse.value))
    {
      if k < |subs| {
        assert subs'[k] == subs[k];
      }
    }
  }

  /** Loads only ever add references: on a well-formed pool, a recount has
      grown every slot. */
  lemma RecountedGrown(s0: seq<Texture>, s: seq<Texture>, subs: seq<Submodel>)
    requires SlotsConsistent(s0) && Recounted(s0, s, subs)
    ensures Grown(s0, s)
  {
    forall i | 0 <= i < |s|
      ensures s[i].refs >= s0[i].refs
    {
      assert SlotConsistent(s0[i]);
    }
  }

  /** Counts, paths and GL names of `s` are those of `s0` after
      `naxa_free_texture` was called on the diffuse of each of `subs`: each
      slot loses one reference per submodel holding it, and its path and GL
      name once those take its count to zero; a slot still loaded keeps
      both. */
  predicate Freed(s0: seq<Texture>, s: seq<Texture>, subs: seq<Submodel>)
  {
    |s| == |s0| &&
    forall i :: 0 <= i < |s| ==>
      s[i].refs == s0[i].refs - Count(subs, i) &&
      s[i].path == (if s0[i].refs <= Count(subs, i) then None else s0[i].path) &&
      s[i].texture == if s0[i].refs <= Count(subs, i) then 0 else s0[i].texture
  }

  /** Before any free, a consistent pool has freed nothing: a slot with no
      reference holds no path and no GL name. */
  lemma FreedNothing(s0: seq<Texture>)
    requires SlotsConsistent(s0)
    ensures Freed(s0, s0, [])
  {
    forall i | 0 <= i < |s0|
      ensures s0[i].refs <= 0 ==> s0[i].path.None? && s0[i].texture == 0
    {
      assert SlotConsistent(s0[i]);
    }
  }

  /** Freeing the diffuse of submodel `k` extends the account of the
      first `k` submodels to the first `k + 1`. */
  lemma FreedStep(s0: seq<Texture>, s: seq<Texture>, r: seq<Texture>, subs: seq<Submodel>, k: nat)
    requires k < |subs| && Freed(s0, s, subs[..k]) && Dropped(s, r, subs[k].diffuse)
    ensures Freed(s0, r, subs[..k + 1])
  {
    assert subs[..k + 1][..k] == subs[..k];
    forall i | 0 <= i < |r|
      ensures Count(subs[..k + 1], i) == Count(subs[..k], i) + (if subs[k].diffuse == Some(i) then 1 else 0)
    {
    }
  }

  /** The module-level state of loader.c: the two pools, their hash maps and
      the heads of their free lists. */
  class LoaderCaches {
    const textureCache: array<Texture>
    const textureHashMap: array<int>
    var textureNext: int
    const modelCache: array<ModelSlot>
    const modelHashMap: array<int>
    var modelNext: int
    ghost var freeTextures: seq<nat>
    ghost var textureChain: seq<nat>

    /** The arrays have their declared sizes and do not overlap. */
    ghost predicate Shaped()
      reads this
    {
      textureCache.Length == TEXTURE_CACHE_SIZE && textureHashMap.Length == TEXTURE_CACHE_HASH_SIZE &&
      modelCache.Length == MODEL_CACHE_SIZE && modelHashMap.Length == MODEL_CACHE_HASH_SIZE &&
      textureHashMap != modelHashMap
    }

    /** The texture cache invariant over the current state of the pool. */
    ghost predicate Valid()
      reads this, textureCache, textureHashMap
    {
      PoolValid(textureCache[..], textureHashMap[..], textureNext, freeTextures, textureChain)
    }

    /** Some loaded slot holds `path`. */
    ghost predicate Cached(path: CString)
      reads this, textureCache
    {
      CachedIn(textureCache[..], path)
    }

    /** The texture pool as `init_loader_caches` leaves it. */
    ghost predicate TexturePoolInitial()
      reads this, textureCache, textureHashMap
    {
      textureCache.Length == TEXTURE_CACHE_SIZE && textureHashMap.Length == TEXTURE_CACHE_HASH_SIZE &&
      (forall i :: 0 <= i < TEXTURE_CACHE_SIZE ==>
         textureCache[i] == FreshSlot(i)) &&
      (forall b :: 0 <= b < TEXTURE_CACHE_HASH_SIZE ==> textureHashMap[b] == NULL) &&
      textureNext == 0 && freeTextures == Range(TEXTURE_CACHE_SIZE) && textureChain == []
    }

    /** The model pool as `init_loader_caches` leaves it. */
    ghost predicate ModelPoolInitial()
      reads this, modelCache, modelHashMap
    {
      modelCache.Length == MODEL_CACHE_SIZE && modelHashMap.Length == MODEL_CACHE_HASH_SIZE &&
      (forall i :: 0 <= i < MODEL_CACHE_SIZE ==>
         modelCache[i] == ZERO_MODEL_SLOT.(next := if i < MODEL_CACHE_SIZE - 1 then i + 1 else NULL)) &&
      (forall b :: 0 <= b < MODEL_CACHE_HASH_SIZE ==> modelHashMap[b] == NULL) &&
      modelNext == 0
    }

    /** The zero-filled storage of the module-level arrays before
        initialisation. It does not satisfy the cache invariant, which
        only `init_loader_caches` establishes (see `ZeroedNotValid` for
        what a load or a free does in it). */
    constructor ()
      ensures Shaped()
      ensures fresh(textureCache) && fresh(textureHashMap) && fresh(modelCache) && fresh(modelHashMap)
      ensures textureNext == NULL && modelNext == NULL
      ensures Zeroed(textureCache[..], textureHashMap[..], textureNext) && !Valid()
      ensures forall i :: 0 <= i < MODEL_CACHE_SIZE ==> modelCache[i] == ZERO_MODEL_SLOT
      ensures forall b :: 0 <= b < MODEL_CACHE_HASH_SIZE ==> modelHashMap[b] == NULL
    {
      textureCache := new Texture[TEXTURE_CACHE_SIZE](_ => ZERO_TEXTURE);
      textureHashMap := new int[TEXTURE_CACHE_HASH_SIZE](_ => NULL);
      modelCache := new ModelSlot[MODEL_CACHE_SIZE](_ => ZERO_MODEL_SLOT);
      modelHashMap := new int[MODEL_CACHE_HASH_SIZE](_ => NULL);
      textureNext, modelNext := NULL, NULL;
      freeTextures, textureChain := [], [];
      new;
      ZeroedNotValid(textureCache[..], textureHashMap[..], textureNext, freeTextures, textureChain);
    }

    /** `init_loader_caches`: reset the model pool, then the texture pool. */
    method InitLoaderCaches() returns (rc: int32)
      requires Shaped()
      modifies this`textureNext, this`modelNext, this`freeTextures, this`textureChain
      modifies textureCache, textureHashMap, modelCache, modelHashMap
      ensures rc == Err.SUCCESS
      ensures Shaped() && Valid()
      ensures TexturePoolInitial() && ModelPoolInitial()
    {
      InitModelPool();
      InitTexturePool();
      InitialPoolIsValid();
      rc := Err.SUCCESS;
    }

    /** loader.c:36-42: zero the model pool and its hash map, chain every
        slot onto the free list in index order, and point the head at slot 0. */
    method InitModelPool()
      requires Shaped()
      modifies this`modelNext, modelCache, modelHashMap
      ensures Shaped() && ModelPoolInitial()
    {
      forall i | 0 <= i < MODEL_CACHE_SIZE {
        modelCache[i] := ZERO_MODEL_SLOT;
      }
      forall b | 0 <= b < MODEL_CACHE_HASH_SIZE {
        modelHashMap[b] := NULL;
      }
      for i := 0 to MODEL_CACHE_SIZE - 1
        modifies modelCache
        invariant forall j :: 0 <= j < MODEL_CACHE_SIZE ==>
          modelCache[j] == ZERO_MODEL_SLOT.(next := if j < i then j + 1 else NULL)
      {
        modelCache[i] := modelCache[i].(next := i + 1);
      }
      modelCache[MODEL_CACHE_SIZE - 1] := modelCache[MODEL_CACHE_SIZE - 1].(next := NULL);
      modelNext := 0;
    }

    /** loader.c:43-49: the same for the texture pool. */
    method InitTexturePool()
      requires Shaped()
      modifies this`textureNext, this`freeTextures, this`textureChain, textureCache, textureHashMap
      ensures Shaped() && TexturePoolInitial()
    {
      forall i | 0 <= i < TEXTURE_CACHE_SIZE {
        textureCache[i] := ZERO_TEXTURE;
      }
      forall b | 0 <= b < TEXTURE_CACHE_HASH_SIZE {
        textureHashMap[b] := NULL;
      }
      for i := 0 to TEXTURE_CACHE_SIZE - 1
        modifies textureCache
        invariant forall j :: 0 <= j < TEXTURE_CACHE_SIZE ==>
          textureCache[j] == ZERO_TEXTURE.(next := if j < i then j + 1 else NULL)
      {
        textureCache[i] := textureCache[i].(next := i + 1);
      }
      textureCache[TEXTURE_CACHE_SIZE - 1] := textureCache[TEXTURE_CACHE_SIZE - 1].(next := NULL);
      textureNext := 0;
      freeTextures, textureChain := Range(TEXTURE_CACHE_SIZE), [];
    }

    /** The freshly initialised texture pool satisfies the cache invariant:
        all slots free, in index order, and no chains. */
    lemma InitialPoolIsValid()
      requires TexturePoolInitial()
      ensures Valid()
    {
      var s := textureCache[..];
      assert forall i :: 0 <= i < |s| ==> s[i] == FreshSlot(i);
      FreshPoolValid(s, textureHashMap[..]);
    }

    /** The lookup of loader.c:61-72: walk the chain of the path's bucket
        comparing paths. Returns the slot holding `path`, or NULL when none
        does. */
    method FindTexture(path: CString) returns (current: int, bucket: nat)
      requires Valid()
      ensures bucket == Bucket(path)
      ensures current == NULL <==> !Cached(path)
      ensures current != NULL ==> 0 <= current < TEXTURE_CACHE_SIZE && textureCache[current].path == Some(path)
    {
      var code: uint32;
      ghost var acc: uint32;
      assert (path + [NUL])[|path|] == NUL;
      code, acc := Util.HashCode(path + [NUL]);
      bucket := code % TEXTURE_CACHE_HASH_SIZE;
      current := textureHashMap[bucket];
      ghost var k := 0;
      while current != NULL && textureCache[current].path != Some(path)
        invariant 0 <= k <= |textureChain|
        invariant current == if k < |textureChain| then textureChain[k] else NULL
        invariant forall l :: 0 <= l < k ==> textureCache[textureChain[l]].path != Some(path)
        decreases |textureChain| - k
      {
        current := textureCache[current].next;
        k := k + 1;
      }
      if current == NULL {
        forall i | 0 <= i < TEXTURE_CACHE_SIZE && textureCache[i].path.Some?
          ensures textureCache[i].path != Some(path)
        {
          assert i in textureChain;
        }
      }
    }

    /** `naxa_load_texture`: a NULL `dest` or `path` is refused before
        `*dest` is written. Otherwise `*dest` is cleared; a path already in
        the cache gains a reference and is returned; a new one must decode,
        get a GL name and have 3 or 4 channels, and then takes the head of
        the free list, which is pushed on the front of its bucket's chain
        with one reference. `image` and `handle` are what the decoder and
        `glGenTextures` give for this path. */
    method LoadTexture(hasDest: bool, path: Option<CString>, image: Option<Image>, handle: uint32)
      returns (rc: int32, dest: OutParam<nat>)
      requires Valid()
      modifies this`textureNext, this`freeTextures, this`textureChain, textureCache, textureHashMap
      ensures Valid()
      ensures !hasDest || path.None? ==>
        rc == Err.NULLPTR && dest == Untouched && unchanged(this, textureCache, textureHashMap)
      // Found in the cache: one more reference, nothing else changes.
      ensures hasDest && path.Some? && old(Cached(path.value)) ==>
        rc == Err.SUCCESS && dest.Set? && dest.value < TEXTURE_CACHE_SIZE &&
        old(textureCache[dest.value].path) == path &&
        Retained(old(textureCache[..]), textureCache[..], dest.value) &&
        unchanged(this, textureHashMap)
      // Not cached and cannot be loaded: the errors in the order they are checked.
      ensures hasDest && path.Some? && !old(Cached(path.value)) && !(Uploadable(image, handle) && old(textureNext) != NULL) ==>
        dest == Null && unchanged(this, textureCache, textureHashMap) &&
        rc == (if image.None? then Err.FILE
               else if !Uploadable(image, handle) then Err.INTERNAL
               else Err.EXHAUSTED)
      // Not cached and loaded: the free-list head moves to the front of bucket 0.
      ensures hasDest && path.Some? && !old(Cached(path.value)) && Uploadable(image, handle) && old(textureNext) != NULL ==>
        rc == Err.SUCCESS && dest == Set(old(textureNext)) &&
        textureCache[..] == old(textureCache[..])[old(textureNext) := Texture(handle, 1, path, old(textureHashMap[0]))] &&
        textureNext == old(textureCache[textureNext].next) &&
        textureHashMap[..] == old(textureHashMap[..])[0 := old(textureNext)] &&
        freeTextures == old(freeTextures[1..]) && textureChain == [old(textureNext)] + old(textureChain)
      // Summary over slots: only the returned one changes, by one reference
      // if it was loaded, to one reference and `path` if it was free.
      ensures dest.Set? <==> rc == Err.SUCCESS
      ensures dest.Set? ==> dest.value < TEXTURE_CACHE_SIZE
      ensures Taken(old(textureCache[..]), textureCache[..], dest, path, handle, Uploadable(image, handle))
      ensures dest == Null ==> !Uploadable(image, handle) || old(textureNext) == NULL
      ensures old(textureNext) == NULL ==> textureNext == NULL
    {
      if !hasDest || path.None? {
        return Err.NULLPTR, Untouched;
      }
      var p := path.value;
      dest := Null;
      ghost var s0 := textureCache[..];
      NothingTaken(s0, dest, path, handle, Uploadable(image, handle));

      var current, bucket := FindTexture(p);
      assert textureCache[..] == s0;
      if current != NULL {
        Retain(current);
        RetainTaken(s0, textureCache[..], current, handle, Uploadable(image, handle));
        return Err.SUCCESS, Set(current);
      }

      rc, dest := LoadNew(p, bucket, image, handle);
    }

    /** loader.c:74-126, a path not in the cache: the decoded image, the GL
        name and the channel count are checked in that order, then the pool
        must have a free slot, which takes the path with one reference. */
    method LoadNew(path: CString, bucket: nat, image: Option<Image>, handle: uint32) returns (rc: int32, dest: OutParam<nat>)
      requires Valid() && !Cached(path) && bucket == Bucket(path)
      modifies this`textureNext, this`freeTextures, this`textureChain, textureCache, textureHashMap
      ensures Valid()
      ensures !(Uploadable(image, handle) && old(textureNext) != NULL) ==>
        dest == Null && unchanged(this, textureCache, textureHashMap) &&
        rc == (if image.None? then Err.FILE
               else if !Uploadable(image, handle) then Err.INTERNAL
               else Err.EXHAUSTED)
      ensures Uploadable(image, handle) && old(textureNext) != NULL ==>
        rc == Err.SUCCESS && dest == Set(old(textureNext)) &&
        textureCache[..] == old(textureCache[..])[old(textureNext) := Texture(handle, 1, Some(path), old(textureHashMap[0]))] &&
        textureNext == old(textureCache[textureNext].next) &&
        textureHashMap[..] == old(textureHashMap[..])[0 := old(textureNext)] &&
        freeTextures == old(freeTextures[1..]) && textureChain == [old(textureNext)] + old(textureChain)
      ensures dest.Set? <==> rc == Err.SUCCESS
      ensures dest.Set? ==> dest.value < TEXTURE_CACHE_SIZE
      ensures Taken(old(textureCache[..]), textureCache[..], dest, Some(path), handle, Uploadable(image, handle))
    {
      dest := Null;
      ghost var s0 := textureCache[..];
      NothingTaken(s0, dest, Some(path), handle, Uploadable(image, handle));
      if image.None? {
        return Err.FILE, dest;
      }
      if handle == 0 {
        return Err.INTERNAL, dest;
      }
      if image.value.channels != 3 && image.value.channels != 4 {
        return Err.INTERNAL, dest;
      }
      if textureNext == NULL {
        return Err.EXHAUSTED, dest;
      }
      var texture := textureNext;
      TakeFreeSlot(texture, bucket, path, handle);
      FillTaken(s0, texture, textureCache[texture]);
      rc, dest := Err.SUCCESS, Set(texture);
    }

    /** loader.c:67: one more reference to the loaded slot `i`. */
    method Retain(i: nat)
      requires Valid() && i < TEXTURE_CACHE_SIZE && textureCache[i].path.Some?
      modifies textureCache
      ensures Valid()
      ensures Retained(old(textureCache[..]), textureCache[..], i)
    {
      ghost var s0 := textureCache[..];
      var slot := textureCache[i].(refs := textureCache[i].refs + 1);
      textureCache[i] := slot;
      assert textureCache[..] == s0[i := slot];
      RetainedByUpdate(s0, i);
      RecountValid(s0, textureHashMap[..], textureNext, freeTextures, textureChain, i, slot.refs);
    }

    /** loader.c:113-122: pop `texture`, the head of the free list, and push
        it on the path's bucket (bucket 0) holding `path`, one reference and
        the GL name. */
    method TakeFreeSlot(texture: nat, bucket: nat, path: CString, handle: uint32)
      requires Valid() && texture == textureNext && !Cached(path) && handle != 0 && bucket == Bucket(path)
      modifies this`textureNext, this`freeTextures, this`textureChain, textureCache, textureHashMap
      ensures Valid()
      ensures texture < TEXTURE_CACHE_SIZE && old(textureCache[texture].path).None?
      ensures textureCache[..] == old(textureCache[..])[texture := Texture(handle, 1, Some(path), old(textureHashMap[0]))]
      ensures textureNext == old(textureCache[texture].next)
      ensures textureHashMap[..] == old(textureHashMap[..])[0 := texture]
      ensures freeTextures == old(freeTextures[1..]) && textureChain == [texture] + old(textureChain)
    {
      ghost var s', hm' := textureCache[..][texture := Texture(handle, 1, Some(path), textureHashMap[0])], textureHashMap[..][0 := texture];
      TakeValid(textureCache[..], textureHashMap[..], textureNext, freeTextures, textureChain, path, handle);
      textureNext := textureCache[texture].next;
      textureCache[texture] := textureCache[texture].(next := textureHashMap[bucket]);
      textureHashMap[bucket] := texture;
      textureCache[texture] := textureCache[texture].(path := Some(path), refs := 1, texture := handle);
      freeTextures, textureChain := freeTextures[1..], [texture] + textureChain;
      assert textureCache[..] == s' && textureHashMap[..] == hm';
    }

    /** `naxa_free_texture`: a NULL texture, or one outside the pool, is
        refused. Otherwise one reference is dropped. When none is left the
        slot is unlinked from its bucket's chain (at the head or after its
        predecessor), zeroed and pushed on the free list; when the count has
        gone below zero the slot was already free and INTERNAL is reported. */
    method FreeTexture(texture: Option<int>) returns (rc: int32)
      requires Valid()
      modifies this`textureNext, this`freeTextures, this`textureChain, textureCache, textureHashMap
      ensures Valid()
      ensures texture.None? ==> rc == Err.NULLPTR && unchanged(this, textureCache, textureHashMap)
      ensures texture.Some? && !(0 <= texture.value < TEXTURE_CACHE_SIZE) ==>
        rc == Err.BOUNDS && unchanged(this, textureCache, textureHashMap)
      // References remain, or the slot was already free: only the count moves.
      ensures texture.Some? && 0 <= texture.value < TEXTURE_CACHE_SIZE && old(textureCache[texture.value].refs) != 1 ==>
        rc == (if old(textureCache[texture.value].refs) > 1 then Err.SUCCESS else Err.INTERNAL) &&
        textureCache[..] == old(textureCache[..])[texture.value := old(textureCache[texture.value]).(refs := old(textureCache[texture.value].refs) - 1)] &&
        unchanged(this, textureHashMap)
      // The last reference: the slot leaves its chain and heads the free list.
      ensures texture.Some? && 0 <= texture.value < TEXTURE_CACHE_SIZE && old(textureCache[texture.value].refs) == 1 ==>
        rc == Err.SUCCESS &&
        textureCache[..] == Released(old(textureCache[..]), texture.value, old(textureNext)) &&
        textureHashMap[..] == old(textureHashMap[..])[0 := if old(textureHashMap[0]) == texture.value
                                                        then old(textureCache[texture.value].next)
                                                        else old(textureHashMap[0])] &&
        textureNext == texture.value &&
        freeTextures == [texture.value] + old(freeTextures) &&
        textureChain == Remove(old(textureChain), texture.value)
      // Summary over slots: the freed slot loses one reference, and its path
      // when that was the last one.
      ensures Dropped(old(textureCache[..]), textureCache[..], texture)
    {
      if texture.None? {
        return Err.NULLPTR;
      }
      var t := texture.value;
      if t < 0 || t >= TEXTURE_CACHE_SIZE {
        return Err.BOUNDS;
      }
      ghost var s0, hm0, next0, free0, chain0 := textureCache[..], textureHashMap[..], textureNext, freeTextures, textureChain;
      var slot := textureCache[t].(refs := textureCache[t].refs - 1);
      textureCache[t] := slot;
      assert textureCache[..] == s0[t := slot];
      if slot.refs == 0 {
        DropLastReference(t, s0, hm0, next0, free0, chain0);
        ReleaseDropped(s0, t, next0);
      } else if slot.refs < 0 {
        RecountValid(s0, hm0, next0, free0, chain0, t, slot.refs);
        DecrementDropped(s0, t);
        return Err.INTERNAL;
      } else {
        RecountValid(s0, hm0, next0, free0, chain0, t, slot.refs);
        DecrementDropped(s0, t);
      }
      rc := Err.SUCCESS;
    }

    /** The last reference to `t` has been dropped from the pool `s0`:
        release the slot and bring the ghost lists along. */
    method DropLastReference(t: nat, ghost s0: seq<Texture>, ghost hm0: seq<int>, ghost next0: int,
                             ghost free0: seq<nat>, ghost chain0: seq<nat>)
      requires PoolValid(s0, hm0, next0, free0, chain0) && t < |s0| && s0[t].refs == 1
      requires textureCache[..] == s0[t := s0[t].(refs := 0)]
      requires textureHashMap[..] == hm0 && textureNext == next0
      modifies this`textureNext, this`freeTextures, this`textureChain, textureCache, textureHashMap
      ensures Valid()
      ensures textureCache[..] == Released(s0, t, next0)
      ensures textureHashMap[..] == hm0[0 := if hm0[0] == t then s0[t].next else hm0[0]]
      ensures textureNext == t && freeTextures == [t] + free0 && textureChain == Remove(chain0, t)
    {
      assert s0[t].path.Some?;
      ghost var j :| 0 <= j < |chain0| && chain0[j] == t;
      LinkedFrame(s0, textureCache[..], hm0[0], chain0);
      ReleaseSlot(t, chain0, j);
      freeTextures, textureChain := [t] + free0, Remove(chain0, t);
      UnlinkIsRelease(s0, hm0, next0, free0, chain0, j);
      assert textureCache[..] == Released(s0, t, next0);
      ReleaseValid(s0, hm0, next0, free0, chain0, t);
    }

    /** loader.c:140-165, the last reference to `t` gone: find `t`'s bucket,
        unlink `t` there (the bucket head, or the `next` of its predecessor,
        found by walking the chain), zero the slot and push it on the free
        list. `t` is at position `j` of the chain. */
    method ReleaseSlot(t: nat, ghost chain: seq<nat>, ghost j: nat)
      requires textureCache.Length == TEXTURE_CACHE_SIZE && textureHashMap.Length == TEXTURE_CACHE_HASH_SIZE
      requires Linked(textureCache[..], textureHashMap[0], chain) && j < |chain| && chain[j] == t
      requires textureCache[t].path.Some?
      modifies this`textureNext, textureCache, textureHashMap
      ensures textureNext == t
      ensures textureHashMap[..] == old(textureHashMap[..])[0 := if j == 0 then old(textureCache[t].next) else old(textureHashMap[0])]
      ensures textureCache[..] == Unlinked(old(textureCache[..]), chain, j, old(textureNext))
    {
      ghost var s := textureCache[..];
      var code: uint32;
      ghost var acc: uint32;
      var p := textureCache[t].path.value;
      assert (p + [NUL])[|p|] == NUL;
      code, acc := Util.HashCode(p + [NUL]);
      var bucket := code % TEXTURE_CACHE_HASH_SIZE;
      if textureHashMap[bucket] == t {
        assert j == 0;
        textureHashMap[bucket] := textureCache[t].next;
      } else {
        var current := textureHashMap[bucket];
        ghost var k := 0;
        while current != NULL && textureCache[current].next != t
          invariant 0 <= k < j && current == chain[k]
          decreases j - k
        {
          assert s[chain[k]].next == NextOf(chain, k);
          current := textureCache[current].next;
          k := k + 1;
        }
        if current == NULL {
          // The slot is missing from its chain: ruled out by Linked.
          assert false;
        }
        assert s[chain[k]].next == NextOf(chain, k);
        assert k + 1 == j;
        textureCache[current] := textureCache[current].(next := textureCache[t].next);
      }
      textureCache[t] := ZERO_TEXTURE;
      textureCache[t] := textureCache[t].(next := textureNext);
      textureNext := t;
    }

    /** The texture half of the mesh loop of loader.c:265-301: for each mesh
        in order, a mesh whose material has no diffuse texture ends the load
        with INTERNAL (the references taken for the meshes before it are
        kept); otherwise its texture is loaded from `dir` followed by the
        material's path, and the submodel's diffuse is whatever
        `naxa_load_texture` stored, its return code ignored. `subs` holds the
        submodels finished so far. */
    method LoadDiffuseTextures(dir: CString, meshes: seq<Assembly.Mesh>, sources: seq<TextureSource>,
                               layout: seq<Submodel>)
      returns (rc: int32, subs: seq<Submodel>)
      requires Valid() && |sources| == |meshes| == |layout|
      modifies this`textureNext, this`freeTextures, this`textureChain, textureCache, textureHashMap
      ensures Valid()
      ensures rc == Err.SUCCESS <==> forall m :: 0 <= m < |meshes| ==> meshes[m].diffuse.Some?
      ensures rc == Err.SUCCESS ==> |subs| == |meshes|
      ensures rc != Err.SUCCESS ==> rc == Err.INTERNAL && |subs| < |meshes| && meshes[|subs|].diffuse.None?
      ensures LaidOut(meshes, layout, subs)
      ensures DiffusesLoaded(textureCache[..], dir, meshes, subs)
      // A NULL diffuse means the image could not be uploaded or the pool ran out.
      ensures FailuresExplained(old(textureCache[..]), dir, meshes, subs, sources)
      ensures Recounted(old(textureCache[..]), textureCache[..], subs)
      // A slot that was free and is now loaded was filled for one of `subs`.
      ensures FilledFrom(old(textureCache[..]), textureCache[..], subs, sources)
    {
      ghost var s0 := textureCache[..];
      RecountedNothing(s0);
      FilledNothing(s0, sources);
      subs := [];
      var m := 0;
      while m < |meshes|
        invariant Valid()
        invariant 0 <= m <= |meshes| && |subs| == m
        invariant LaidOut(meshes, layout, subs)
        invariant DiffusesLoaded(textureCache[..], dir, meshes, subs)
        invariant FailuresExplained(s0, dir, meshes, subs, sources)
        invariant Recounted(s0, textureCache[..], subs)
        invariant FilledFrom(s0, textureCache[..], subs, sources)
      {
        if meshes[m].diffuse.None? {
          return Err.INTERNAL, subs;
        }
        var fullPath := Assembly.TexturePath(dir, meshes[m].diffuse.value);
        ghost var s1, cached := textureCache[..], Cached(fullPath);
        if textureNext == NULL {
          ExhaustedMeansFull(s1, textureHashMap[..], freeTextures, textureChain);
        }
        var _, d := LoadTexture(true, Some(fullPath), sources[m].image, sources[m].handle);
        var sub := layout[m].(diffuse := DiffuseOf(d));
        ghost var uploadable := Uploadable(sources[m].image, sources[m].handle);
        if sub.diffuse.None? {
          LoadFailedAt(s0, s1, dir, meshes, subs, sources);
        }
        RecountedStep(s0, s1, textureCache[..], subs, d, fullPath, sources[m].handle, uploadable, sub);
        DiffusesStep(s1, textureCache[..], dir, meshes, subs, d, sources[m].handle, uploadable, sub);
        FilledStep(s0, s1, textureCache[..], subs, sources, d, fullPath, sub);
        FailuresStep(s0, dir, meshes, subs, sources, sub);
        LaidOutStep(meshes, layout, subs, sub.diffuse);
        subs := subs + [sub];
        m := m + 1;
      }
      rc := Err.SUCCESS;
    }

    /** `naxa_load_model`: a NULL `dest` or `path` is refused before `*dest`
        is written. Otherwise the model's directory is taken from `path`,
        `*dest` is cleared and the scene imported; a scene that is missing
        or has no meshes is FILE, a GL name that comes back 0 is INTERNAL.
        Then every mesh is merged into one vertex and one element buffer,
        which go to GL, and its diffuse texture is loaded; a mesh without one
        is INTERNAL. `scene` is what the importer returns for `path`,
        `vao`, `vbo` and `ebo` what GL hands out, and `sources` what the
        decoder and GL give for each mesh's texture; `vertices` and
        `elements` are the buffers handed to `glBufferData`. */
    method LoadModel(hasDest: bool, path: Option<CString>, scene: Option<seq<Assembly.Mesh>>,
                     vao: uint32, vbo: uint32, ebo: uint32, sources: seq<TextureSource>)
      returns (rc: int32, dest: OutParam<Model>, vertices: seq<Assembly.VertexData>, elements: seq<nat>)
      requires Valid()
      requires scene.Some? ==> |sources| == |scene.value|
      modifies this`textureNext, this`freeTextures, this`textureChain, textureCache, textureHashMap
      ensures Valid()
      ensures !hasDest || path.None? ==>
        rc == Err.NULLPTR && dest == Untouched && unchanged(this, textureCache, textureHashMap)
      ensures hasDest && path.Some? && (scene.None? || scene.value == []) ==>
        rc == Err.FILE && dest == Null && unchanged(this, textureCache, textureHashMap)
      ensures hasDest && path.Some? && scene.Some? && scene.value != [] && (vao == 0 || vbo == 0 || ebo == 0) ==>
        rc == Err.INTERNAL && dest == Null && unchanged(this, textureCache, textureHashMap)
      // With a scene and GL names, the load fails exactly when a mesh has no diffuse texture.
      ensures hasDest && path.Some? && scene.Some? && scene.value != [] && vao != 0 && vbo != 0 && ebo != 0 ==>
        (rc == Err.SUCCESS <==> forall m :: 0 <= m < |scene.value| ==> scene.value[m].diffuse.Some?) &&
        (rc != Err.SUCCESS ==> rc == Err.INTERNAL && dest == Null)
      ensures dest.Set? <==> rc == Err.SUCCESS
      // A load never drops a reference or unloads a slot.
      ensures Grown(old(textureCache[..]), textureCache[..])
      // The loaded model: the GL names, the merged buffers and the layout of
      // the submodels, each with its diffuse texture.
      ensures rc == Err.SUCCESS ==>
        path.Some? && scene.Some? && dest.Set? &&
        var meshes, model := scene.value, dest.value;
        model.vao == vao && model.vbo == vbo && model.ebo == ebo &&
        vertices == Assembly.FlatVertices(meshes) && elements == Assembly.FlatElements(meshes) &&
        |model.submodels| == |meshes| &&
        LaidOut(meshes, Assembly.Layout(meshes), model.submodels) &&
        DiffusesLoaded(textureCache[..], Assembly.DirectoryOf(path.value), meshes, model.submodels) &&
        FailuresExplained(old(textureCache[..]), Assembly.DirectoryOf(path.value), meshes, model.submodels, sources) &&
        Recounted(old(textureCache[..]), textureCache[..], model.submodels) &&
        FilledFrom(old(textureCache[..]), textureCache[..], model.submodels, sources)
    {
      vertices, elements := [], [];
      ghost var s0 := textureCache[..];
      assert Grown(s0, s0);
      if !hasDest || path.None? {
        return Err.NULLPTR, Untouched, vertices, elements;
      }
      var dir := Assembly.Directory(path.value);
      dest := Null;
      if scene.None? {
        return Err.FILE, dest, vertices, elements;
      }
      var meshes := scene.value;
      if |meshes| == 0 {
        return Err.FILE, dest, vertices, elements;
      }
      if vao == 0 || vbo == 0 || ebo == 0 {
        return Err.INTERNAL, dest, vertices, elements;
      }
      var layout;
      vertices, elements, layout := Assembly.MergeMeshes(meshes);
      assert textureCache[..] == s0;
      var subs;
      rc, subs := LoadDiffuseTextures(dir, meshes, sources, layout);
      RecountedGrown(s0, textureCache[..], subs);
      if rc != Err.SUCCESS {
        return rc, dest, [], [];
      }
      dest := Set(Model(vao, vbo, ebo, subs));
    }

    /** `naxa_free_model`: NULL is a no-op; otherwise the diffuse texture of
        every submodel is freed once, in order, whatever `naxa_free_texture`
        returns. The GL objects and the model's memory are released too. */
    method FreeModel(model: Option<Model>) returns (rc: int32)
      requires Valid()
      modifies this`textureNext, this`freeTextures, this`textureChain, textureCache, textureHashMap
      ensures Valid() && rc == Err.SUCCESS
      ensures model.None? ==> unchanged(this, textureCache, textureHashMap)
      ensures model.Some? ==> Freed(old(textureCache[..]), textureCache[..], model.value.submodels)
    {
      if model.None? {
        return Err.SUCCESS;
      }
      var subs := model.value.submodels;
      ghost var s0 := textureCache[..];
      FreedNothing(s0);
      for k := 0 to |subs|
        invariant Valid()
        invariant Freed(s0, textureCache[..], subs[..k])
      {
        ghost var s1 := textureCache[..];
        var _ := FreeTexture(subs[k].diffuse);
        FreedStep(s0, s1, textureCache[..], subs, k);
      }
      assert subs[..|subs|] == subs;
      rc := Err.SUCCESS;
    }
  }
}

=== FILE: pool.dfy ===
/** The texture pool of src/gfx/loader.c as a value: the slot array, the
    bucket heads, the free-list head, and the ghost lists of slots on the free
    list and on the bucket-0 chain. The lemmas here show that each step of
    loading and freeing keeps the pool well formed. */
module TexturePool {
  import opened CTypes
  import opened Struct
  import opened Chain

  const TEXTURE_CACHE_SIZE: nat := 512
  const TEXTURE_CACHE_HASH_SIZE: nat := 16

  /** The list 0, 1, ..., n - 1. */
  function Range(n: nat): (r: seq<nat>)
    ensures |r| == n
    ensures forall i :: 0 <= i < n ==> r[i] == i
  {
    if n == 0 then [] else Range(n - 1) + [n - 1]
  }

  /** Slot `i` as `init_loader_caches` leaves it: zeroed and linked to the
      slot after it, the last one to NULL. */
  function FreshSlot(i: nat): (t: Texture)
    ensures t.path.None? && t.refs == 0 && t.texture == 0
  {
    ZERO_TEXTURE.(next := if i < TEXTURE_CACHE_SIZE - 1 then i + 1 else NULL)
  }

  /** The slot fields that go with membership: a free slot is zeroed apart
      from a count that a stale free may have pushed below zero; a loaded
      slot has a GL texture and at least one reference. */
  predicate SlotConsistent(t: Texture)
  {
    if t.path.None? then t.texture == 0 && t.refs <= 0 else t.texture != 0 && t.refs >= 1
  }

  /** Some loaded slot holds `path`. */
  predicate CachedIn(s: seq<Texture>, path: CString)
  {
    exists i :: 0 <= i < |s| && s[i].path == Some(path)
  }

  /** The free list and the bucket-0 chain are well linked from their heads,
      and the other buckets are empty. */
  ghost predicate Lists(s: seq<Texture>, hm: seq<int>, next: int, free: seq<nat>, chain: seq<nat>)
    requires |hm| == TEXTURE_CACHE_HASH_SIZE
  {
    Linked(s, next, free) && Linked(s, hm[0], chain) &&
    forall b :: 1 <= b < |hm| ==> hm[b] == NULL
  }

  /** Slots on the free list hold no path; slots on the chain hold one. */
  predicate Tagged(s: seq<Texture>, free: seq<nat>, chain: seq<nat>)
  {
    (forall k :: 0 <= k < |free| ==> free[k] < |s| && s[free[k]].path.None?) &&
    (forall k :: 0 <= k < |chain| ==> chain[k] < |s| && s[chain[k]].path.Some?)
  }

  /** Every slot without a path is on the free list, every slot with one on
      the chain. */
  predicate Covered(s: seq<Texture>, free: seq<nat>, chain: seq<nat>)
  {
    (forall i :: 0 <= i < |s| && s[i].path.None? ==> i in free) &&
    (forall i :: 0 <= i < |s| && s[i].path.Some? ==> i in chain)
  }

  /** Every slot's fields fit its list. */
  predicate SlotsConsistent(s: seq<Texture>)
  {
    forall i :: 0 <= i < |s| ==> SlotConsistent(s[i])
  }

  /** No two slots on the chain hold the same path. */
  predicate ChainPathsDistinct(s: seq<Texture>, chain: seq<nat>)
  {
    forall k, l :: 0 <= k < l < |chain| && chain[k] < |s| && chain[l] < |s| ==> s[chain[k]].path != s[chain[l]].path
  }

  /** The pool invariant: every slot is on exactly one of the free list and
      the bucket-0 chain, according to whether it holds a path; the other
      buckets are empty; each slot's fields fit its list; no two slots on
      the chain hold the same path. */
  ghost predicate PoolValid(s: seq<Texture>, hm: seq<int>, next: int, free: seq<nat>, chain: seq<nat>)
  {
    |s| == TEXTURE_CACHE_SIZE && |hm| == TEXTURE_CACHE_HASH_SIZE &&
    Lists(s, hm, next, free, chain) && Tagged(s, free, chain) && Covered(s, free, chain) &&
    SlotsConsistent(s) && ChainPathsDistinct(s, chain)
  }

  /** The freshly initialised pool is valid: every slot free, the free
      list running through them in index order, and every bucket empty. */
  lemma FreshPoolValid(s: seq<Texture>, hm: seq<int>)
    requires |s| == TEXTURE_CACHE_SIZE && |hm| == TEXTURE_CACHE_HASH_SIZE
    requires forall i :: 0 <= i < |s| ==> s[i] == FreshSlot(i)
    requires forall b :: 0 <= b < |hm| ==> hm[b] == NULL
    ensures PoolValid(s, hm, 0, Range(TEXTURE_CACHE_SIZE), [])
  {
    var free := Range(TEXTURE_CACHE_SIZE);
    forall k | 0 <= k < |free|
      ensures s[free[k]].next == NextOf(free, k)
    {
      if k + 1 < |free| {
        assert free[k + 1] == k + 1;
      }
    }
    forall i | 0 <= i < |s|
      ensures i in free
    {
      assert free[i] == i;
    }
  }

  /** The zero-filled pool that exists before `init_loader_caches` runs:
      every slot zeroed, every bucket and the free-list head NULL. */
  predicate Zeroed(s: seq<Texture>, hm: seq<int>, next: int)
  {
    |s| == TEXTURE_CACHE_SIZE && |hm| == TEXTURE_CACHE_HASH_SIZE && next == NULL &&
    (forall i :: 0 <= i < |s| ==> s[i] == ZERO_TEXTURE) &&
    (forall b :: 0 <= b < |hm| ==> hm[b] == NULL)
  }

  /** The zero-filled pool does not satisfy the invariant, whatever lists
      are chosen for it: its slots hold no path yet none is on the (empty)
      free list. In it every lookup misses and the free-list head is NULL,
      so a load that gets past the decoder and GL ends EXHAUSTED, and every
      slot has no reference, so a free drives the count below zero and ends
      INTERNAL. */
  lemma ZeroedNotValid(s: seq<Texture>, hm: seq<int>, next: int, free: seq<nat>, chain: seq<nat>)
    requires Zeroed(s, hm, next)
    ensures !PoolValid(s, hm, next, free, chain)
    ensures forall path :: !CachedIn(s, path)
    ensures forall i :: 0 <= i < |s| ==> s[i].refs - 1 < 0
  {
    if Linked(s, next, free) {
      assert free == [];
      assert s[0].path.None? && 0 !in free;
    }
  }

  /** An empty free list means a full pool: every slot holds a path, so
      the EXHAUSTED of `naxa_load_texture` is reported only when all 512
      slots are loaded. */
  lemma ExhaustedMeansFull(s: seq<Texture>, hm: seq<int>, free: seq<nat>, chain: seq<nat>)
    requires PoolValid(s, hm, NULL, free, chain)
    ensures forall i :: 0 <= i < |s| ==> s[i].path.Some?
    ensures |chain| == TEXTURE_CACHE_SIZE
  {
    assert free == [];
    forall x: nat
      ensures x in chain <==> x < TEXTURE_CACHE_SIZE
    {
      if x < TEXTURE_CACHE_SIZE {
        assert s[x].path.Some?;
      }
    }
    CoveringLength(chain, TEXTURE_CACHE_SIZE);
  }

  /** In a valid pool a path is held by at most one slot, so the lookup of
      a cached path always finds the same slot. */
  lemma PathsIdentifySlots(s: seq<Texture>, hm: seq<int>, next: int, free: seq<nat>, chain: seq<nat>, a: nat, b: nat)
    requires PoolValid(s, hm, next, free, chain)
    requires a < |s| && b < |s| && s[a].path.Some? && s[a].path == s[b].path
    ensures a == b
  {
    var ka :| 0 <= ka < |chain| && chain[ka] == a;
    var kb :| 0 <= kb < |chain| && chain[kb] == b;
  }

  /** Counts, paths and GL names of `r` are those of `s` after one
      reference to `texture` is dropped: its count goes down by one, and it
      loses its path and its GL name when that was its last reference. A
      NULL or out-of-range `texture` drops nothing. */
  predicate Dropped(s: seq<Texture>, r: seq<Texture>, texture: Option<int>)
  {
    |r| == |s| &&
    forall i :: 0 <= i < |s| ==>
      r[i].refs == s[i].refs - (if texture == Some(i) then 1 else 0) &&
      r[i].path == (if texture == Some(i) && s[i].refs == 1 then None else s[i].path) &&
      r[i].texture == if texture == Some(i) && s[i].refs == 1 then 0 else s[i].texture
  }

  /** Counts, paths and GL names of `r` are those of `s` after a load that
      stored `dest` for `path`, where `handle` is the GL name a new texture
      gets and `uploadable` whether its image could be uploaded: the slot
      stored gains a reference and holds `path`. If it was loaded it already
      held `path` and keeps its GL name; if it was free, the image was
      uploadable, the count starts again from one and the GL name is
      `handle`. Every other slot keeps its count, its path and its GL name. */
  predicate Taken(s: seq<Texture>, r: seq<Texture>, dest: OutParam<nat>, path: Option<CString>,
                  handle: uint32, uploadable: bool)
  {
    |r| == |s| &&
    forall i :: 0 <= i < |s| ==>
      if dest == Set(i) then
        r[i].path == path && (s[i].path == path || s[i].path.None?) &&
        r[i].refs == (if s[i].path.Some? then s[i].refs + 1 else 1) &&
        r[i].texture == (if s[i].path.Some? then s[i].texture else handle) &&
        (s[i].path.None? ==> uploadable)
      else
        r[i].path == s[i].path && r[i].refs == s[i].refs && r[i].texture == s[i].texture
  }

  /** The pool after a release of slot `t`: every link to `t` is redirected
      to `t`'s successor, and `t` is zeroed and linked in front of the free
      list whose head was `freeHead`. */
  function Released(s: seq<Texture>, t: nat, freeHead: int): (r: seq<Texture>)
    requires t < |s|
    ensures |r| == |s| && r[t] == ZERO_TEXTURE.(next := freeHead)
    ensures forall i :: 0 <= i < |s| && i != t ==>
      r[i] == if s[i].next == t then s[i].(next := s[t].next) else s[i]
  {
    seq(|s|, i requires 0 <= i < |s| =>
      if i == t then ZERO_TEXTURE.(next := freeHead)
      else if s[i].next == t then s[i].(next := s[t].next)
      else s[i])
  }

  /** The pool after unlinking chain position `j` by hand: the predecessor,
      if any, takes over the slot's successor, and the slot is zeroed and
      linked in front of the free list whose head was `freeHead`. */
  function Unlinked(s: seq<Texture>, chain: seq<nat>, j: nat, freeHead: int): (r: seq<Texture>)
    requires j < |chain| && chain[j] < |s| && (j > 0 ==> chain[j - 1] < |s|)
    ensures |r| == |s|
  {
    var t := chain[j];
    (if j == 0 then s else s[chain[j - 1] := s[chain[j - 1]].(next := s[t].next)])[t := ZERO_TEXTURE.(next := freeHead)]
  }

  /** A slot that is not on a list is not any list element's successor. */
  lemma NotSuccessor(s: seq<Texture>, head: int, L: seq<nat>, t: nat, x: nat)
    requires Linked(s, head, L) && t !in L && x in L
    ensures s[x].next != t
  {
    var k :| 0 <= k < |L| && L[k] == x;
    assert s[L[k]].next == NextOf(L, k);
    if k + 1 < |L| {
      assert L[k + 1] in L;
    }
  }

  /** On a list, only position `j - 1` links to position `j`. */
  lemma OnlyPredecessor(s: seq<Texture>, head: int, L: seq<nat>, j: nat, x: nat)
    requires Linked(s, head, L) && j < |L| && x in L && s[x].next == L[j]
    ensures 0 < j && x == L[j - 1]
  {
    var k :| 0 <= k < |L| && L[k] == x;
    assert s[L[k]].next == NextOf(L, k);
    assert k + 1 < |L| && L[k + 1] == L[j];
  }

  /** A slot on the free list is not on the chain. */
  lemma FreeNotChained(s: seq<Texture>, free: seq<nat>, chain: seq<nat>, x: nat)
    requires Tagged(s, free, chain) && x in free
    ensures x !in chain
  {
    var k :| 0 <= k < |free| && free[k] == x;
    forall l | 0 <= l < |chain|
      ensures chain[l] != x
    {
      assert s[chain[l]].path.Some? && s[free[k]].path.None?;
    }
  }

  /** The only slot whose `next` is chain position `j` is chain position
      `j - 1`; the head of the chain has no predecessor at all. */
  lemma PredecessorAt(s: seq<Texture>, hm: seq<int>, next: int, free: seq<nat>, chain: seq<nat>, j: nat)
    requires PoolValid(s, hm, next, free, chain) && j < |chain|
    ensures forall i :: 0 <= i < |s| && s[i].next == chain[j] ==> 0 < j && i == chain[j - 1]
  {
    var t := chain[j];
    assert t !in free by {
      forall k | 0 <= k < |free|
        ensures free[k] != t
      {
        assert s[free[k]].path.None? && s[chain[j]].path.Some?;
      }
    }
    forall x | x in free
      ensures s[x].next != t
    {
      NotSuccessor(s, next, free, t, x);
    }
    forall i | 0 <= i < |s| && s[i].next == t
      ensures 0 < j && i == chain[j - 1]
    {
      assert i in chain;
      OnlyPredecessor(s, hm[0], chain, j, i);
    }
  }

  /** Unlinking by hand at the slot's chain position is the release: no
      slot other than the predecessor links to it. */
  lemma ReleasedIsUnlinked(s: seq<Texture>, hm: seq<int>, next: int, free: seq<nat>, chain: seq<nat>, j: nat)
    requires PoolValid(s, hm, next, free, chain) && j < |chain|
    ensures Released(s, chain[j], next) == Unlinked(s, chain, j, next)
  {
    PredecessorAt(s, hm, next, free, chain, j);
    var r, u := Released(s, chain[j], next), Unlinked(s, chain, j, next);
    forall i | 0 <= i < |s|
      ensures r[i] == u[i]
    {
    }
  }

  /** Dropping the last reference of chain position `j` and unlinking it
      by hand is the release of that slot: it loses its reference and its
      path, and every other slot keeps both. */
  lemma UnlinkIsRelease(s: seq<Texture>, hm: seq<int>, next: int, free: seq<nat>, chain: seq<nat>, j: nat)
    requires PoolValid(s, hm, next, free, chain) && j < |chain| && s[chain[j]].refs == 1
    ensures Unlinked(s[chain[j] := s[chain[j]].(refs := 0)], chain, j, next) == Released(s, chain[j], next)
  {
    ReleasedIsUnlinked(s, hm, next, free, chain, j);
    UnlinkIgnoresRefs(s, chain, j, next, 0);
  }

  /** Unlinking reads no count: setting the slot's own count first changes
      nothing but that count, which the zeroing overwrites. */
  lemma UnlinkIgnoresRefs(s: seq<Texture>, chain: seq<nat>, j: nat, freeHead: int, refs: int)
    requires Distinct(chain) && j < |chain| && chain[j] < |s| && (j > 0 ==> chain[j - 1] < |s|)
    ensures Unlinked(s[chain[j] := s[chain[j]].(refs := refs)], chain, j, freeHead) == Unlinked(s, chain, j, freeHead)
  {
    var t := chain[j];
    var u, u1 := Unlinked(s, chain, j, freeHead), Unlinked(s[t := s[t].(refs := refs)], chain, j, freeHead);
    if j > 0 {
      assert chain[j - 1] != t;
    }
    forall i | 0 <= i < |s|
      ensures u1[i] == u[i]
    {
    }
  }

  /** Releasing a slot whose last reference went drops that reference and
      the slot's path, and touches no other count or path. */
  lemma ReleaseDropped(s: seq<Texture>, t: nat, freeHead: int)
    requires t < |s| && s[t].refs == 1
    ensures Dropped(s, Released(s, t, freeHead), Some(t))
  {
  }

  /** Dropping a reference that is not the last only moves the count. */
  lemma DecrementDropped(s: seq<Texture>, t: nat)
    requires t < |s| && s[t].refs != 1
    ensures Dropped(s, s[t := s[t].(refs := s[t].refs - 1)], Some(t))
  {
  }

  /** A load that stores nothing takes nothing. */
  lemma NothingTaken(s: seq<Texture>, dest: OutParam<nat>, path: Option<CString>, handle: uint32, uploadable: bool)
    requires !dest.Set?
    ensures Taken(s, s, dest, path, handle, uploadable)
  {
  }

  /** `r` is `s` with one more reference to slot `t` and nothing else
      changed. */
  predicate Retained(s: seq<Texture>, r: seq<Texture>, t: nat)
  {
    |r| == |s| && t < |s| &&
    forall i :: 0 <= i < |s| ==> r[i] == if i == t then s[i].(refs := s[i].refs + 1) else s[i]
  }

  /** Bumping the count of slot `t` in place retains `t`. */
  lemma RetainedByUpdate(s: seq<Texture>, t: nat)
    requires t < |s|
    ensures Retained(s, s[t := s[t].(refs := s[t].refs + 1)], t)
  {
  }

  /** A hit on the loaded slot `t` holding `path` takes one more reference. */
  lemma RetainTaken(s: seq<Texture>, r: seq<Texture>, t: nat, handle: uint32, uploadable: bool)
    requires Retained(s, r, t) && s[t].path.Some?
    ensures Taken(s, r, Set(t), s[t].path, handle, uploadable)
  {
  }

  /** A miss that fills the free slot `t` takes its first reference. */
  lemma FillTaken(s: seq<Texture>, t: nat, slot: Texture)
    requires t < |s| && s[t].path.None? && slot.path.Some? && slot.refs == 1
    ensures Taken(s, s[t := slot], Set(t), slot.path, slot.texture, true)
  {
  }

  /** Replacing a slot's reference count by one that still fits its list
      keeps the pool well formed. */
  lemma RecountValid(s: seq<Texture>, hm: seq<int>, next: int, free: seq<nat>, chain: seq<nat>, i: nat, r: int)
    requires PoolValid(s, hm, next, free, chain) && i < |s|
    requires SlotConsistent(s[i].(refs := r))
    ensures PoolValid(s[i := s[i].(refs := r)], hm, next, free, chain)
  {
    var s' := s[i := s[i].(refs := r)];
    LinkedFrame(s, s', next, free);
    LinkedFrame(s, s', hm[0], chain);
  }

  // Taking the free-list head `t` for `path` and pushing it on bucket 0.

  /** Popping the free-list head and pushing it on bucket 0 keeps both
      lists well linked. */
  lemma TakeLists(s: seq<Texture>, hm: seq<int>, free: seq<nat>, chain: seq<nat>, s': seq<Texture>)
    requires |hm| == TEXTURE_CACHE_HASH_SIZE && free != []
    requires Lists(s, hm, free[0], free, chain) && Tagged(s, free, chain) && s[free[0]].path.None?
    requires s' == s[free[0] := s[free[0]].(next := hm[0])]
    ensures Lists(s', hm[0 := free[0]], s[free[0]].next, free[1..], [free[0]] + chain)
  {
    var t := free[0];
    LinkedTail(s, t, free);
    assert t !in free[1..];
    assert t !in chain;
    LinkedFrame(s, s', s[t].next, free[1..]);
    LinkedFrame(s, s', hm[0], chain);
    LinkedCons(s', t, chain);
  }

  /** The taken slot leaves the free list holding a path. */
  lemma TakeTagged(s: seq<Texture>, free: seq<nat>, chain: seq<nat>, s': seq<Texture>, path: CString)
    requires free != [] && Tagged(s, free, chain) && Distinct(free)
    requires |s'| == |s| && s'[free[0]].path == Some(path)
    requires forall i :: 0 <= i < |s| && i != free[0] ==> s'[i].path == s[i].path
    ensures Tagged(s', free[1..], [free[0]] + chain)
  {
    var t := free[0];
    forall k | 0 <= k < |free[1..]|
      ensures free[1..][k] < |s'| && s'[free[1..][k]].path.None?
    {
      assert free[1..][k] == free[k + 1] != t;
    }
    forall k | 0 <= k < |[t] + chain|
      ensures ([t] + chain)[k] < |s'| && s'[([t] + chain)[k]].path.Some?
    {
      if k > 0 {
        assert ([t] + chain)[k] == chain[k - 1];
        assert s[chain[k - 1]].path.Some?;
      }
    }
  }

  /** Every free slot but the taken one is still on the free list. */
  lemma TakeCovered(s: seq<Texture>, free: seq<nat>, chain: seq<nat>, s': seq<Texture>, path: CString)
    requires free != [] && Covered(s, free, chain) && free[0] < |s|
    requires |s'| == |s| && s'[free[0]].path == Some(path)
    requires forall i :: 0 <= i < |s| && i != free[0] ==> s'[i].path == s[i].path
    ensures Covered(s', free[1..], [free[0]] + chain)
  {
    forall i | 0 <= i < |s'| && s'[i].path.None?
      ensures i in free[1..]
    {
      var k :| 0 <= k < |free| && free[k] == i;
      assert free[1..][k - 1] == i;
    }
  }

  /** A path not cached before is not on the chain twice after. */
  lemma TakeDistinct(s: seq<Texture>, free: seq<nat>, chain: seq<nat>, s': seq<Texture>, path: CString)
    requires free != [] && free[0] < |s| && ChainPathsDistinct(s, chain) && !CachedIn(s, path) && free[0] !in chain
    requires |s'| == |s| && s'[free[0]].path == Some(path)
    requires forall i :: 0 <= i < |s| && i != free[0] ==> s'[i].path == s[i].path
    ensures ChainPathsDistinct(s', [free[0]] + chain)
  {
    var c := [free[0]] + chain;
    forall k, l | 0 <= k < l < |c| && c[k] < |s'| && c[l] < |s'|
      ensures s'[c[k]].path != s'[c[l]].path
    {
      assert c[l] == chain[l - 1] && c[l] != free[0];
      if k > 0 {
        assert c[k] == chain[k - 1] && c[k] != free[0];
      }
    }
  }

  /** Taking the free-list head for a path that is not cached and pushing it
      on bucket 0 keeps the pool well formed. */
  lemma TakeValid(s: seq<Texture>, hm: seq<int>, next: int, free: seq<nat>, chain: seq<nat>,
                  path: CString, handle: uint32)
    requires PoolValid(s, hm, next, free, chain) && next != NULL && !CachedIn(s, path) && handle != 0
    ensures 0 <= next < |s|
    ensures PoolValid(s[next := Texture(handle, 1, Some(path), hm[0])], hm[0 := next], s[next].next,
                      free[1..], [next] + chain)
  {
    var t := next;
    assert free != [] && t == free[0] && s[t].path.None?;
    var linked := s[t := s[t].(next := hm[0])];
    var s' := s[t := Texture(handle, 1, Some(path), hm[0])];
    TakeLists(s, hm, free, chain, linked);
    LinkedFrame(linked, s', s[t].next, free[1..]);
    LinkedFrame(linked, s', next, [next] + chain);
    TakeTagged(s, free, chain, s', path);
    TakeCovered(s, free, chain, s', path);
    FreeNotChained(s, free, chain, t);
    TakeDistinct(s, free, chain, s', path);
  }

  // Releasing a loaded slot `t`.

  /** The released slot heads the old free list. */
  lemma ReleaseFreeLinked(s: seq<Texture>, chain: seq<nat>, next: int, free: seq<nat>, t: nat)
    requires t < |s| && Linked(s, next, free) && Tagged(s, free, chain) && t in chain
    ensures Linked(Released(s, t, next), t, [t] + free)
  {
    var r := Released(s, t, next);
    assert t !in free by {
      forall k | 0 <= k < |free|
        ensures free[k] != t
      {
        assert s[free[k]].path.None?;
      }
      var l :| 0 <= l < |chain| && chain[l] == t;
      assert s[chain[l]].path.Some?;
    }
    forall x | x in free
      ensures r[x].next == s[x].next
    {
      NotSuccessor(s, next, free, t, x);
    }
    LinkedFrame(s, r, next, free);
    LinkedCons(r, t, free);
  }

  /** Releasing the chain head leaves the chain starting at its successor. */
  lemma ReleaseChainHead(s: seq<Texture>, chain: seq<nat>, next: int)
    requires chain != [] && Linked(s, chain[0], chain)
    ensures Linked(Released(s, chain[0], next), s[chain[0]].next, Remove(chain, chain[0]))
  {
    var t := chain[0];
    var r := Released(s, t, next);
    RemoveAt(chain, 0);
    assert Remove(chain, t) == chain[1..];
    LinkedTail(s, t, chain);
    forall x | x in chain[1..]
      ensures r[x].next == s[x].next
    {
      assert x in chain && x != t;
      if s[x].next == t {
        OnlyPredecessor(s, t, chain, 0, x);
      }
    }
    LinkedFrame(s, r, s[t].next, chain[1..]);
  }

  /** Releasing an interior slot links its predecessor to its successor. */
  lemma ReleaseChainInterior(s: seq<Texture>, head: int, chain: seq<nat>, j: nat, next: int)
    requires 0 < j < |chain| && Linked(s, head, chain)
    ensures Linked(Released(s, chain[j], next), head, Remove(chain, chain[j]))
  {
    var t := chain[j];
    var r := Released(s, t, next);
    RemoveAt(chain, j);
    var chain' := chain[..j] + chain[j + 1..];
    var pred := chain[j - 1];
    var m := s[pred := s[pred].(next := s[t].next)];
    LinkedUnlink(s, m, head, chain, j);
    forall x | x in chain'
      ensures r[x].next == m[x].next
    {
      assert x in chain && x != t by {
        CutAt(chain, j, chain');
        var k :| 0 <= k < |chain'| && chain'[k] == x;
        assert x == chain[if k < j then k else k + 1];
      }
      if x != pred && s[x].next == t {
        OnlyPredecessor(s, head, chain, j, x);
      }
    }
    LinkedFrame(m, r, head, chain');
  }

  /** Releasing a chained slot keeps both lists well linked. */
  lemma ReleaseLists(s: seq<Texture>, hm: seq<int>, next: int, free: seq<nat>, chain: seq<nat>, t: nat)
    requires |hm| == TEXTURE_CACHE_HASH_SIZE && t < |s|
    requires Lists(s, hm, next, free, chain) && Tagged(s, free, chain) && t in chain
    ensures Lists(Released(s, t, next), hm[0 := if hm[0] == t then s[t].next else hm[0]], t,
                  [t] + free, Remove(chain, t))
  {
    ReleaseFreeLinked(s, chain, next, free, t);
    var j :| 0 <= j < |chain| && chain[j] == t;
    if j == 0 {
      ReleaseChainHead(s, chain, next);
    } else {
      assert hm[0] == chain[0] != t;
      ReleaseChainInterior(s, hm[0], chain, j, next);
    }
  }

  /** The released slot, now without a path, moves to the free list. */
  lemma ReleaseTagged(s: seq<Texture>, free: seq<nat>, chain: seq<nat>, t: nat, r: seq<Texture>)
    requires Tagged(s, free, chain) && t < |s| && Distinct(chain)
    requires |r| == |s| && r[t].path.None?
    requires forall i :: 0 <= i < |s| && i != t ==> r[i].path == s[i].path
    ensures Tagged(r, [t] + free, Remove(chain, t))
  {
    forall k | 0 <= k < |[t] + free|
      ensures ([t] + free)[k] < |r| && r[([t] + free)[k]].path.None?
    {
      if k > 0 {
        assert ([t] + free)[k] == free[k - 1];
        assert s[free[k - 1]].path.None?;
      }
    }
    var c := Remove(chain, t);
    forall k | 0 <= k < |c|
      ensures c[k] < |r| && r[c[k]].path.Some?
    {
      assert c[k] in c;
      assert c[k] in chain && c[k] != t;
      var l :| 0 <= l < |chain| && chain[l] == c[k];
      assert s[chain[l]].path.Some?;
    }
  }

  /** Every slot is still on the list its path calls for. */
  lemma ReleaseCovered(s: seq<Texture>, free: seq<nat>, chain: seq<nat>, t: nat, r: seq<Texture>)
    requires Covered(s, free, chain) && t < |s|
    requires |r| == |s| && r[t].path.None?
    requires forall i :: 0 <= i < |s| && i != t ==> r[i].path == s[i].path
    ensures Covered(r, [t] + free, Remove(chain, t))
  {
  }

  /** Dropping a slot from the chain keeps its paths distinct. */
  lemma ReleaseDistinct(s: seq<Texture>, chain: seq<nat>, t: nat, r: seq<Texture>)
    requires ChainPathsDistinct(s, chain) && Distinct(chain) && t < |s| && t in chain
    requires |r| == |s|
    requires forall i :: 0 <= i < |s| && i != t ==> r[i].path == s[i].path
    ensures ChainPathsDistinct(r, Remove(chain, t))
  {
    var j :| 0 <= j < |chain| && chain[j] == t;
    RemoveAt(chain, j);
    var c := Remove(chain, t);
    CutAt(chain, j, c);
    forall k, l | 0 <= k < l < |c| && c[k] < |r| && c[l] < |r|
      ensures r[c[k]].path != r[c[l]].path
    {
      var k0 := if k < j then k else k + 1;
      var l0 := if l < j then l else l + 1;
      assert c[k] == chain[k0] && c[l] == chain[l0];
      assert c[k] != t && c[l] != t;
    }
  }

  /** Releasing a loaded slot keeps the pool well formed: the slot leaves
      the chain, the order of the rest is kept, and it becomes the free-list
      head. */
  lemma ReleaseValid(s: seq<Texture>, hm: seq<int>, next: int, free: seq<nat>, chain: seq<nat>, t: nat)
    requires PoolValid(s, hm, next, free, chain) && t < |s| && s[t].path.Some?
    ensures PoolValid(Released(s, t, next), hm[0 := if hm[0] == t then s[t].next else hm[0]], t,
                      [t] + free, Remove(chain, t))
  {
    var r := Released(s, t, next);
    assert t in chain;
    ReleaseLists(s, hm, next, free, chain, t);
    ReleaseTagged(s, free, chain, t, r);
    ReleaseCovered(s, free, chain, t, r);
    ReleaseDistinct(s, chain, t, r);
  }
}

=== FILE: strerror.dfy ===
/** `naxa_strerror` of src/util/strerror.c: a range-checked lookup into a
    table with one message for each of the codes 0 to 5. */
module StrError {
  import opened CTypes
  import Err

  /** `STRERROR_TABLE`, indexed by error code. `Err.NULLPTR` (6) has no entry. */
  const STRERROR_TABLE: seq<string> := [
    "Success",
    "Internal error",
    "Out of bounds",
    "Exhausted",
    "String too long",
    "File error"
  ]

  /** The message for `error`; a code outside the table gets the message of
      `Err.BOUNDS`. */
  function NaxaStrerror(error: int32): (msg: string)
    ensures msg in STRERROR_TABLE
    ensures 0 <= error < |STRERROR_TABLE| ==> msg == STRERROR_TABLE[error]
    ensures msg == "Out of bounds" <==> error == Err.BOUNDS || error < 0 || error >= |STRERROR_TABLE|
  {
    if error < 0 || error >= |STRERROR_TABLE| then STRERROR_TABLE[Err.BOUNDS] else STRERROR_TABLE[error]
  }

  /** Every code in the table has a message of its own, so a message names its
      code unless it is the out-of-range message. */
  lemma MessagesIdentifyCodes(a: int32, b: int32)
    requires 0 <= a < |STRERROR_TABLE| && 0 <= b < |STRERROR_TABLE|
    requires NaxaStrerror(a) == NaxaStrerror(b)
    ensures a == b
  {
    assert |NaxaStrerror(a)| == |NaxaStrerror(b)|;
  }

  /** `Err.NULLPTR` is past the end of the table and reads as "Out of bounds",
      like every other code the table does not cover. */
  lemma NullptrHasNoEntry()
    ensures Err.NULLPTR as int == |STRERROR_TABLE|
    ensures NaxaStrerror(Err.NULLPTR) == NaxaStrerror(Err.BOUNDS) == "Out of bounds"
  {
  }
}

=== FILE: struct.dfy ===
/** The records of include/naxa/struct.h, with pointers into a pool written as
    slot indices (`NULL` is -1). */
module Struct {
  import opened CTypes

  /** The NULL pointer, as a slot index. */
  const NULL: int := -1

  /** `NaxaTexture_t`: a GL texture name, its reference count, its heap copy of
      the path it was loaded from (NULL in a free slot) and the link field,
      which threads the free list while the slot is free and the hash-bucket
      chain while it is in use. */
  datatype Texture = Texture(texture: uint32, refs: int, path: Option<CString>, next: int)

  /** A texture slot after `memset(..., 0, ...)`. */
  const ZERO_TEXTURE: Texture := Texture(0, 0, None, NULL)

  /** `NaxaSubmodel_t`: how many indices to draw, the byte offset of the first
      one in the model's element buffer, and the diffuse texture (NULL when
      its load failed). */
  datatype Submodel = Submodel(vertexCount: int, offset: int, diffuse: Option<int>)

  /** The part of `NaxaModel_t` that `naxa_load_model` fills in: the vertex
      array, vertex buffer and element buffer names, and the submodels. */
  datatype Model = Model(vao: uint32, vbo: uint32, ebo: uint32, submodels: seq<Submodel>)

  /** `NaxaModel_t` as a slot of the model pool, which also carries a
      reference count, a path and a link field. */
  datatype ModelSlot = ModelSlot(model: Model, refs: int, path: Option<CString>, next: int)

  /** A model slot after `memset(..., 0, ...)`. */
  const ZERO_MODEL_SLOT: ModelSlot := ModelSlot(Model(0, 0, 0, []), 0, None, NULL)
}

=== FILE: util.dfy ===
/** `hash_code` of src/util/util.c, and the C library's `strlen` it relies on. */
module Util {
  import opened CTypes

  /** C `strlen`: the index of the first NUL of a terminated buffer. */
  function Strlen(buf: seq<Byte>): (n: nat)
    requires NUL in buf
    ensures n < |buf| && buf[n] == NUL
    ensures NoNul(buf[..n])
  {
    if buf[0] == NUL then 0
    else
      assert buf == [buf[0]] + buf[1..];
      var n := 1 + Strlen(buf[1..]);
      assert buf[..n] == [buf[0]] + buf[1..][..n - 1];
      n
  }

  /** The value of a C `char` in arithmetic. `char` is signed on the ABIs the
      library targets, so bytes from 0x80 up are negative. */
  function SignedChar(b: Byte): int
  {
    if b < 0x80 then b else b - 0x100
  }

  /** The accumulator `hash_code` computes over `s`: it starts at 7 and takes
      `h * 31 + c` for each character, wrapping as `uint32_t` does. */
  ghost function Accumulator(s: seq<Byte>): uint32
  {
    if s == [] then 7
    else (Accumulator(s[..|s| - 1]) * 31 + SignedChar(s[|s| - 1])) % 0x1_0000_0000
  }

  /** `hash_code(string)`: walks the bytes before the terminator, folding them
      into an accumulator that it then discards, and returns 0. `acc` exposes
      the discarded accumulator. */
  method HashCode(s: seq<Byte>) returns (code: uint32, ghost acc: uint32)
    requires NUL in s
    ensures code == 0
    ensures acc == Accumulator(s[..Strlen(s)])
  {
    var hash: uint32 := 7;
    var length := Strlen(s);
    var i := 0;
    while i < length
      invariant 0 <= i <= length
      invariant hash == Accumulator(s[..i])
    {
      assert s[..i + 1][..i] == s[..i];
      hash := (hash * 31 + SignedChar(s[i])) % 0x1_0000_0000;
      i := i + 1;
    }
    acc := hash;
    code := 0;
  }

  /** The terminator `strlen` finds is the first NUL: any index holding a
      NUL with none before it is `Strlen`. */
  lemma StrlenIsFirstNul(buf: seq<Byte>, n: nat)
    requires n < |buf| && buf[n] == NUL && NoNul(buf[..n])
    ensures Strlen(buf) == n
  {
    var m := Strlen(buf);
    forall i | 0 <= i < n
      ensures buf[i] != NUL
    {
      assert buf[..n][i] == buf[i];
    }
    forall i | 0 <= i < m
      ensures buf[i] != NUL
    {
      assert buf[..m][i] == buf[i];
    }
  }

  /** Whatever follows the terminator does not reach the accumulator: two
      buffers that agree up to their first NUL fold to the same value. */
  lemma AccumulatorStopsAtTerminator(s: seq<Byte>, t: seq<Byte>)
    requires NUL in s
    requires Strlen(s) < |t| && s[..Strlen(s) + 1] == t[..Strlen(s) + 1]
    ensures NUL in t && Strlen(t) == Strlen(s)
    ensures Accumulator(s[..Strlen(s)]) == Accumulator(t[..Strlen(t)])
  {
    var n := Strlen(s);
    assert t[n] == s[..n + 1][n] == NUL;
    assert t[..n] == s[..n];
    StrlenIsFirstNul(t, n);
  }
}
